=== FILE: README.md ===
# A levelled logging library, modelled in Dafny

The library keeps a registry of named loggers (`loggerMap`). Each logger
holds a list of writers, and each writer is a threshold level paired with an
output device. The devices are a dated log file, buffered standard output or
unbuffered console output. `Init` merges a list of logger definitions into
the registry and makes sure a `"default"` logger exists. `GetLogger` looks a
name up. `SetLevel` changes a writer's threshold. `Logger.Write` drops
records below the logger's cached minimum level. Otherwise it lays the
record out once, in a buffer taken from a pool, and hands the bytes to every
writer whose threshold the record's level meets. A background worker
refreshes a cached date and time code; the file device reads that code to
pick the day's file.

The model is split into modules that follow the source files:

- `Text` covers ASCII case mapping, decimal rendering and the first occurrence of a character.
- `Levels` holds the level constants and `getLevelFromStr`.
- `Formatter` models `format.go`: the level names, the buffer pool and the record layout.
- `Devices` models `device.go`. A `Host` object stands for the process's
  standard output, the file system and the clock cache.
- `Clock` models `updateNow`, including the packed date and time codes.
- `Log` models the `Logger` with its writers, `UpdateLevel`, `Write` and `Flush`.
- `Registry` models `loggerMap` with `Init`, `GetLogger` and `SetLevel`.

Objects that the source updates in place are classes with `modifies`
clauses: loggers, devices, buffers, the pool, the registry and the host.
Ghost fields record what each device was handed. A device's snapshot, what
it was handed together with its whole state, is a value. Pure functions
(`StateOnWrite`, `FilesOnWrite`, `StateOnFlush`, `StdoutOnFlush`,
`FilesOnFlush`) say how one device's write or flush moves its state, standard
output and the files. Folds over the writer list (`Taken`, `WrittenStdout`,
`WrittenFiles`, `Flushed`, `FlushedStdout`, `FlushedFiles`) specify
`Logger.Write` and `Logger.Flush` writer by writer, in list order. The
registry's writer lists are also kept as a value, a map from names to
writer descriptions. `Init` is proved against
`Merge`, a function that applies the definitions one by one. Lemmas
characterise `Merge` name by name.

Some behaviours of the source are kept as written:

- `SetLevel` with index `-1` assigns the new level to copies of the writers
  (`for _, writer := range`), so no threshold changes. Only `minLevel` is
  recomputed, and it was already up to date.
- An index below `-1` panics in Go. The model returns `IndexPanic` and
  changes nothing.
- A definition whose device kind has no constructor in `deviceMap` makes
  Go's `Init` call a nil function and panic part-way. The model stops
  there and returns `false`. Every definition before it has been merged.
- `Init` lowercases each definition's name and its whole device
  descriptor, so a file device's path prefix is lowercased too.
  `GetLogger` and `SetLevel` use the name exactly as given.
- `getLevelStr` and `getLevelStr2` print unknown levels as `I` and `INFO`.
  `DISABLE` has no name, so it prints as `INFO`.

## Model

| member | source | states |
|---|---|---|
| Text.Lower | log.go:117-118 | strings.ToLower on ASCII: same length, each letter mapped to lower case |
| Text.LowerIdempotent | log.go:117-118 | lowercasing twice is lowercasing once |
| Text.LowerOfUpper | log.go:167 | case differences vanish once lowercased |
| Text.Decimal | format.go:94 | the decimal digits of n: at least one, their value is n, a leading zero only for 0 itself, and a single digit exactly below 10 |
| Text.DecimalInjective | device.go:54 | distinct numbers have distinct decimal renderings |
| Text.IntDecimal | format.go:94 | strconv.FormatInt base 10: a leading '-' exactly for negatives, then digits whose value is the magnitude, with no leading zero after the '-' |
| Text.FirstIndex | device.go:15 | the first index of a character, or None exactly when it is absent |
| Levels.LevelFromStr | log.go:166-195 | every parsed level lies between DEBUG and DISABLE, so FATAL cannot be configured |
| Levels.LevelFromStrTable | log.go:166-195 | both directions of the name table: which spellings give each level, and every other spelling gives INFO |
| Levels.LevelFromStrIgnoresCase | log.go:167 | upper- and lower-cased spellings parse to the same level |
| Formatter.LetterIsInitial | format.go:38-72 | each one-letter tag is the initial of the level's printed name |
| Formatter.LevelLetter | format.go:38-54 | the tag is one of D, I, W, E, F, and it is I exactly for INFO and the levels without a case of their own |
| Formatter.LevelName | format.go:56-72 | the name is one of DEBUG, INFO, WARN, ERROR, FATAL, and it is INFO exactly for INFO and the levels without a case of their own |
| Formatter.LevelNameRoundTrip | format.go:56-72 | the printed names and tags of DEBUG..ERROR parse back to their level; FATAL and DISABLE come back as INFO |
| Formatter.Buffer.constructor | format.go:19 | a new pool buffer is empty |
| Formatter.BuffPool.constructor | format.go:16-22 | the pool starts with no idle buffer |
| Formatter.BuffPool.Get | format.go:24-26 | the buffer handed out is empty, and the last idle buffer leaves the pool |
| Formatter.BuffPool.Put | format.go:28-31 | the buffer is reset and joins the idle ones; every idle buffer stays empty |
| Formatter.GetThenPut | format.go:24-31 | a get followed by a put restores a non-empty pool |
| Formatter.LastSlash | format.go:85-91 | the last '/' at or before an index: it is a '/' and none follows it up to the index |
| Formatter.BaseName | format.go:85-92 | the base name is a non-empty suffix of the path, right after a '/', with no '/' before its last character |
| Formatter.BaseStart | format.go:85-91 | the backward scan stops just past the last '/' before the final character, at the base name |
| Formatter.RecordShape | format.go:75-99 | a record starts with its stamp and a space, names its level right after them, and carries the message just before its final newline |
| Formatter.Record | format.go:75-99 | a record is longer than its stamp, level name and message together and ends in a newline; without a caller it is exactly those parts plus four separator characters, a space, "] " and the newline |
| Formatter.Format | format.go:75-99 | the buffer, taken from the pool, holds exactly the record, and the pool loses its last idle buffer |
| Formatter.WriteRecord | format.go:79-98 | the appends into an empty buffer produce exactly the record |
| Formatter.WriteHead | format.go:79-81 | stamp, space, level name |
| Formatter.WriteCaller | format.go:82-95 | " <base name>:<line>" is appended when the caller is known, nothing otherwise |
| Formatter.WriteTail | format.go:96-98 | "] ", the message and a newline are appended |
| Devices.SplitDescriptor | device.go:15-20 | the kind holds no ':'; with a ':', kind + ":" + args rebuilds the descriptor; without one, args is empty |
| Devices.DescOfWithArgs | device.go:14-22 | only the first ':' splits: a file device keeps the whole rest as its prefix, and the other kinds ignore their arguments |
| Devices.FileWithArgs | device.go:33-37 | "file:<args>" builds a file device with prefix args |
| Devices.StdoutWithArgs | device.go:110-115 | "stdout:<args>" builds a stdout device |
| Devices.ConsoleWithArgs | device.go:90-92 | "console:<args>" builds a console device |
| Devices.DescOfBare | device.go:15-21 | a bare kind builds its device, and a file device gets the empty prefix |
| Devices.FirstAfterKind | device.go:15 | `kind:args` splits into kind and args when the kind has no ':' |
| Devices.DescOf | device.go:14-22 | no device exactly when the kind before the first ':' is not file, stdout or console; a file device's prefix is everything after "file:", and empty for a bare "file" |
| Devices.ColonAfterKind | device.go:15 | the first ':' of `kind:args` is the one that ends the kind |
| Devices.FileNameInjective | device.go:54 | different dates never share a log file name |
| Devices.FileNameLayout | device.go:54 | the name is the prefix, a '-', the date's decimal digits and ".log", in that order |
| Devices.FileDevice.constructor | device.go:33-37 | a file device starts with no file open and nothing buffered |
| Devices.FileDevice.FlushWriter | device.go:45 | the buffered bytes are appended to the writer's file, and the buffer empties |
| Devices.FileDevice.Write | device.go:39-74 | the device records the payload, and its state and the host's files move exactly as StateOnWrite and FilesOnWrite say: on the same date with a file open, the payload is buffered. A new date flushes and closes the file. With none open, `<prefix>-<date>.log` is created if missing and the payload buffered. A failed open drops the payload. No accepted byte is lost |
| Devices.WriteKeepsAccepted | device.go:39-74 | a write keeps the file device's invariant (only an open file buffers; flushed then pending bytes are every accepted byte), never takes back a flushed byte, and accepts the payload unless that day's file cannot be opened, in which case no file is open |
| Devices.FileDevice.Flush | device.go:77-83 | with a writer, the buffer drains into its file; without one, nothing happens. Every other field (file, writer, date, accepted bytes) is unchanged, as StateOnFlush says |
| Devices.FlushDrains | device.go:77-129 | a flush leaves nothing pending and keeps the file device's invariant; a file device keeps every accepted byte, with the buffer now flushed, and a stdout device has emitted its buffer after what it had emitted |
| Devices.StdoutDevice.constructor | device.go:110-115 | a stdout device starts with nothing buffered |
| Devices.StdoutDevice.Write | device.go:118-122 | the payload is buffered; emitted bytes then buffered bytes are all writes, in order |
| Devices.StdoutDevice.Flush | device.go:125-129 | the buffered bytes reach standard output and the buffer empties |
| Devices.ConsoleDevice.constructor | device.go:90-92 | a console device has received nothing |
| Devices.ConsoleDevice.Write | device.go:94-98 | the payload goes straight to standard output |
| Devices.NewDevice | device.go:14-22 | a new device of the descriptor's kind, fresh, consistent and pristine: nothing received, nothing buffered, no file open, date 0; none exactly when the kind is unknown |
| Devices.DeviceWrite | log.go:281 | the device receives the payload, and its whole state moves as StateOnWrite says. A console device appends the payload to standard output and the others leave it alone. The files change as FilesOnWrite says, which only a file device does |
| Devices.DeviceFlush | log.go:262 | the device holds nothing pending and has received nothing new, and its whole state moves as StateOnFlush says. Standard output gains a stdout device's buffer (StdoutOnFlush) and a file device's buffer goes to its writer's file (FilesOnFlush) |
| Clock.GoRem | log.go:253 | Go's truncated %: the remainder takes the sign of the dividend |
| Clock.GoRemOdd | log.go:253 | the truncated remainder is odd in the dividend |
| Clock.Uint32 | log.go:253-254 | uint32(x) is the value modulo 2^32, and the identity on values that fit |
| Clock.DateCode | log.go:253 | the code fits in 32 bits, and lies between 101 and 991231 for a valid date |
| Clock.TimeCode | log.go:254 | the code fits in 32 bits, and is at most 235959 for a valid time |
| Clock.DateCodeDigits | log.go:253 | for a valid date the code is yymmdd exactly, and the three fields split back out |
| Clock.TimeCodeDigits | log.go:254 | for a valid time the code is hhmmss exactly, and the three fields split back out |
| Clock.DateCodeInjective | log.go:253 | two valid dates share a code exactly when yy, mm and dd agree |
| Clock.DateCodeOrder | log.go:253 | the date code orders valid dates lexicographically by (yy, mm, dd) |
| Clock.TimeCodeInjective | log.go:254 | two valid times share a code exactly when they are equal |
| Clock.TimeCodeOrder | log.go:254 | the time code orders valid times lexicographically |
| Clock.NegativeYearWraps | log.go:253 | before year 0 the sum is negative and uint32 wraps it above every valid code |
| Clock.UpdateNow | log.go:251-257 | the cache holds the date and time codes of the reading |
| Log.MinLevel | log.go:242-249 | the minimum is at most DISABLE, at most every writer's level, and is DISABLE or some writer's level |
| Log.FastPathSound | log.go:267-270 | a level below the cached minimum is exactly one that is below DISABLE and below every writer's threshold |
| Log.Accepting | log.go:279-283 | exactly the writers whose threshold the level meets, in list order |
| Log.AcceptingMonotone | log.go:279-283 | a writer that takes a level takes every higher one |
| Log.AcceptingExact | log.go:279-283 | a writer is among the accepting ones exactly when the level meets its threshold, the test Logger.Write applies to each writer |
| Log.FatalPassesDisabled | log.go:16-29 | FATAL sits above DISABLE, so a writer at DISABLE still takes FATAL but not ERROR |
| Log.Logger.constructor | log.go:224-231 | NewLogger keeps the writers as given, with the minimum computed |
| Log.Logger.UpdateLevel | log.go:242-249 | the loop leaves minLevel at the minimum of DISABLE and every writer's level |
| Log.Logger.AddWriter | log.go:124-126 | the writer is appended and the minimum stays up to date |
| Log.Logger.SetWriterLevel | log.go:217-219 | one writer's threshold changes, the device stays, and the minimum is recomputed |
| Log.Logger.Write | log.go:267-285 | below the minimum, nothing happens and every device is untouched. Otherwise each writer's snapshot (what it received and its whole state) ends as Taken says: the writers whose threshold is met receive the record in list order and move as StateOnWrite says, and the others are exactly as before. Standard output ends as WrittenStdout says and the files as WrittenFiles says. The buffer returns to the pool |
| Log.Logger.Emit | log.go:277-284 | one record is formatted and dispatched, with snapshots, standard output and files as Taken, WrittenStdout and WrittenFiles say, and its buffer is put back once |
| Log.Logger.Render | log.go:277-278 | the buffer from the pool holds exactly the record, the pool loses its last idle buffer, and no device changes |
| Log.Logger.Deliver | log.go:279-284 | the buffer's bytes are dispatched, with snapshots, standard output and files as Taken, WrittenStdout and WrittenFiles say, and the pool gains the emptied buffer |
| Log.Logger.Release | log.go:284 | the buffer is emptied and joins the pool, and no device changes |
| Log.Logger.Dispatch | log.go:279-283 | the writers' snapshots end as Taken says, standard output as WrittenStdout and the files as WrittenFiles |
| Log.DispatchAll | log.go:279-283 | the loop offers the bytes to each writer in list order; afterwards the snapshots, standard output and files are as Taken, WrittenStdout and WrittenFiles say, and every device stays consistent |
| Log.TakenAccepting | log.go:279-283 | in Taken, a writer Accepting lists has received the bytes and moved as StateOnWrite says, and any other writer keeps its snapshot exactly |
| Log.WrittenNone | log.go:279-283 | when no writer's threshold is met, writing changes no snapshot, no standard output and no file |
| Log.Logger.Flush | log.go:260-264 | every device is drained and receives nothing new: the snapshots end as Flushed says, each device moving as StateOnFlush says. Standard output and the files end as flushing each device in list order leaves them, stated by FlushedStdout and FlushedFiles |
| Log.FlushAll | log.go:261-263 | the loop drains every device in list order: snapshots as Flushed says, nothing pending anywhere, and the host changed as FlushedStdout and FlushedFiles say |
| Log.WriteAt | log.go:280-282 | writer i's snapshot moves as Take says and every other snapshot is unchanged; standard output and the files change as that device's write says, and only when the level meets its threshold |
| Log.FlushAt | log.go:262 | writer i's device drains, its snapshot moving as StateOnFlush says, and every other snapshot is unchanged; the host changes as StdoutOnFlush and FilesOnFlush say for that device |
| Registry.DefineWriter | log.go:118-124 | a definition yields a writer exactly when its lowercased kind has a constructor, with the parsed level |
| Registry.KnownPrefix | log.go:116-127 | the number of definitions before the first unknown device kind |
| Registry.Merge | log.go:116-127 | the merge only adds: every name registered before is still registered |
| Registry.DefineLowersFilePath | log.go:117-118 | a "FILE:" or "file:" definition builds a file device whose prefix is the path lowercased |
| Registry.Apply | log.go:117-125 | one definition: the lowercased name joins the registry and gains the writer at the end; other names keep theirs |
| Registry.MergeEntry | log.go:116-127 | after the merge a name is present exactly when it was present or a definition names it. It keeps its writers, followed by one per definition naming it, in order |
| Registry.MergeKeys | log.go:116-122 | the names after the merge are the old ones and the lowercased definition names |
| Registry.MergeGet | log.go:116-127 | each name's writers after the merge are the old ones followed by those the definitions add |
| Registry.GetApply | log.go:119-125 | one definition adds a writer to its own name only |
| Registry.MergeUntouched | log.go:116-127 | a logger no definition names keeps its writers |
| Registry.WritersForUnnamed | log.go:116-127 | a name gains at most one writer per definition, and none if no definition names it |
| Registry.WithDefault | log.go:129-131 | "default" is always present afterwards, an existing "default" is kept, and other names are untouched |
| Registry.DefaultIsConsoleAtDebug | log.go:130 | the fallback logger writes to the console at DEBUG |
| Registry.DescsSnoc | log.go:124 | appending a writer appends its description |
| Registry.DescsUpdate | log.go:217 | changing one threshold changes that one description |
| Registry.DescribeSet | log.go:122 | filing a writer list under a name files its descriptions there |
| Registry.Grows | log.go:120-124 | filing one more writer under a name, new or existing, keeps every earlier writer list as a prefix, and that writer is the only one past the earlier lists |
| Registry.ApplyDescribed | log.go:119-125 | one pass of the loop on the writer lists is Apply on their descriptions |
| Registry.DefaultDescribed | log.go:129-131 | adding the fallback logger on the writer lists is WithDefault on their descriptions |
| Registry.IsLowerFixed | log.go:117 | lowercased names are lower case, and lowercasing leaves exactly those alone |
| Registry.DefaultIsLower | log.go:129 | "default" is already lower case |
| Registry.KnownStep | log.go:116-127 | one more known definition extends the known prefix |
| Registry.MergeStep | log.go:116-127 | one more pass of the loop extends the merge by that definition |
| Registry.KnownPrefixAt | log.go:116-127 | Init stops exactly at the first unknown device kind |
| Registry.Loggers.constructor | log.go:77-89 | package initialisation leaves exactly a "default" console logger at DEBUG, so "default" is registered, and every writer it holds has a fresh, pristine device |
| Registry.Loggers.GetLogger | log.go:157-164 | the logger under exactly this name, else "default", else nil exactly when neither exists |
| Registry.Loggers.GetLoggerTotal | log.go:157-164 | once "default" is registered, GetLogger never returns nil, and an unregistered name gets the default logger |
| Registry.Loggers.Init | log.go:109-133 | with all kinds known, the registry becomes WithDefault(Merge(old, config)), so "default" is registered. Otherwise it stops at the first unknown kind with that prefix merged. Every name keeps its logger object, its old writers stay a prefix of its new ones, and the registry stays consistent. Every writer added past the old lists has a fresh, pristine device |
| Registry.Loggers.DefineAll | log.go:116-127 | the loop merges the definitions up to the first unknown kind; every name keeps its logger object and its old writers as a prefix, and every writer added past them has a fresh device that is still pristine when the loop ends |
| Registry.Loggers.DefineNext | log.go:116-127 | one pass of the loop extends the merge, or reports that the known prefix ends here; every name keeps its logger object and its old writers as a prefix. The writer it adds has a fresh, pristine device, and the devices of writers added by earlier passes stay pristine |
| Registry.Loggers.Define | log.go:117-126 | one definition is applied to the registry when its kind is known, otherwise nothing changes; every name keeps its logger object and its old writers as a prefix, and the writer it adds has a fresh, pristine device |
| Registry.Loggers.Register | log.go:120-122 | a new logger holding just the new writer is filed under the new name, its device fresh and pristine; other loggers are untouched |
| Registry.Loggers.Install | log.go:121-122 | NewLogger with one writer, filed under a new name |
| Registry.Loggers.File | log.go:122 | the logger is filed under the name, together with its writers |
| Registry.Loggers.Extend | log.go:123-126 | the new writer, with a fresh and pristine device, is appended to the existing logger, or nothing changes when the kind is unknown |
| Registry.Loggers.Attach | log.go:124-126 | the writer is appended to that logger, whose minimum is recomputed; no other logger changes |
| Registry.Loggers.AddDefault | log.go:129-131 | the registry becomes WithDefault of what it was, so "default" is registered, and every name keeps its logger object and writers; a fallback writer it adds has a fresh, pristine device |
| Registry.Loggers.AddConsoleDefault | log.go:129-131 | with "default" missing, a console logger at DEBUG is filed under it, with a fresh, pristine device, and nothing else changes |
| Registry.Loggers.SetLevel | log.go:197-221 | An unknown name gives ErrNameNotFound, an index past the end ErrIndexOutOfBound, and an index below -1 IndexPanic; none of these changes anything. -1 changes no threshold. Any other index sets that one writer's threshold and nothing else |
| Registry.Loggers.Recompute | log.go:212-219 | the copy loop and UpdateLevel leave writers and minimum as they were |
| Registry.Loggers.SetAt | log.go:216-219 | that writer of that logger takes the new threshold, and the registry's descriptions change at that one place |

## Left out

- The background worker (`bgWorker`), its ticker and close channel, the
  mutexes and the atomic loads and stores are left out. The model is
  sequential, so interleavings between goroutines are not modelled.
- `time.Now()` is a parameter: a `Clock.Now` reading for `updateNow`, and the
  already formatted timestamp text for `Format`.
- `runtime.Caller` is a parameter: an optional file and line.
- Only `DefaultFormatter` is modelled. The `Formatter` interface, the
  `format` field of `Logger` (log.go:34, 50-53) and the formatter argument
  of `NewLogger` (log.go:224) are left out, because every logger the
  library builds itself gets `DefaultFormatter` (log.go:121, 130). A
  formatter supplied by a caller of `NewLogger` is not modelled.
  `Logger.Write` calls `Formatter.Format`, the model of
  `DefaultFormatter.Format`, where the source dispatches through
  `log.format`.
- `fmt.Sprintf` with arguments is left out. A record's message is given
  already formatted, which is the `len(a) == 0` branch of `Logger.Write`.
- The package-level `Debug`, `Info`, `Warn`, `Error` and `Fatal` functions
  and the methods of the same names are left out. They only pass a fixed
  level to `Write`. `Fatal`'s `os.Exit(1)` is not modelled.
- `InitFromStr` and `InitFromFile` are left out. They read and decode TOML,
  and exit the process on an error.
- Diagnostics printed with `fmt.Printf` are left out. This covers unknown
  level names, unknown level numbers, `SetLevel` errors and file close,
  open and write errors.
- `strings.ToLower` is modelled on ASCII letters only. Unicode case folding
  is not modelled.
- Formatter.BuffPool: `sync.Pool` may drop idle buffers and returns them in
  an unspecified order. The model keeps every idle buffer and hands out the
  most recently pooled one. A buffer taken out is a new object with the
  pooled contents, so buffer identity across get and put is not modelled.
- `bufio.Writer` flushes on its own once its 4096-byte buffer fills. The
  model keeps every byte pending until an explicit flush or a file rotation.
- `os.Stat` and `os.MkdirAll` of the log directory are left out. Whether an
  open fails is decided by the host's set of unopenable names.
- The byte counts returned by writes and the errors of write and close
  calls are left out.
- Standard output is one string, so the order in which console and stdout
  devices reach it is modelled: a console device prints at each write and a
  stdout device when it is flushed. A file device's bytes reach its file
  only when it is flushed or rotates. Writes of different goroutines are not
  interleaved, because the model is sequential.
- Formatter.Format: requires a '/' before the last character of the caller's
  path. Without one, Go slices at index -1 and panics. Paths from
  runtime.Caller are absolute, so this does not arise.
- Devices.NewDevice: an unknown kind makes Go call a nil function from
  `deviceMap` and panic. The model returns `None`, and `Init` stops at that
  definition.
- Registry.Loggers.SetLevel: the index-below-`-1` panic is modelled as the
  result `IndexPanic`, with nothing changed.
- Devices.ConsoleDevice.Flush: does nothing, as in the source, and carries
  no contract.

=== FILE: clock.dfy ===
/**
 * log.go, updateNow: the clock cache that file rotation reads. The date is
 * packed as yymmdd and the time as hhmmss, both stored as uint32.
 */
module Clock {
  import opened Devices

  /** The fields of time.Now() that updateNow reads. */
  datatype Now = Now(year: int, month: int, day: int, hour: int, minute: int, second: int)

  /** Go's % on int: truncated, so the remainder takes the sign of the dividend. */
  function GoRem(a: int, b: int): (r: int)
    requires b > 0
    ensures a >= 0 ==> 0 <= r < b && r == a % b
    ensures a < 0 ==> -b < r <= 0
  {
    if a >= 0 then a % b else -((-a) % b)
  }

  /** Truncation makes the remainder odd in the dividend, unlike Dafny's Euclidean %. */
  lemma GoRemOdd(a: int, b: int)
    requires b > 0
    ensures GoRem(-a, b) == -GoRem(a, b)
  {
  }

  /** Go's uint32(x) on an int: the low 32 bits, two's complement. */
  function Uint32(x: int): (r: nat)
    ensures r < 0x1_0000_0000
    ensures 0 <= x < 0x1_0000_0000 ==> r == x
    ensures (x - r) % 0x1_0000_0000 == 0
  {
    x % 0x1_0000_0000
  }

  /** uint32(t.Year()%100*10000 + int(t.Month())*100 + t.Day()) */
  function DateCode(year: int, month: int, day: int): (r: nat)
    ensures r < 0x1_0000_0000
    ensures ValidDate(year, month, day) ==> 101 <= r <= 991231
  {
    Uint32(GoRem(year, 100) * 10000 + month * 100 + day)
  }

  /** uint32(t.Hour()*10000 + t.Minute()*100 + t.Second()) */
  function TimeCode(hour: int, minute: int, second: int): (r: nat)
    ensures r < 0x1_0000_0000
    ensures ValidTime(hour, minute, second) ==> r <= 235959
  {
    Uint32(hour * 10000 + minute * 100 + second)
  }

  /** Calendar fields time.Time can produce, for a year of the common era. */
  predicate ValidDate(year: int, month: int, day: int)
  {
    year >= 0 && 1 <= month <= 12 && 1 <= day <= 31
  }

  /** Clock fields time.Time can produce. */
  predicate ValidTime(hour: int, minute: int, second: int)
  {
    0 <= hour < 24 && 0 <= minute < 60 && 0 <= second < 60
  }

  /** For a valid date the code is yymmdd exactly, so it is at most 991231. */
  lemma DateCodeDigits(year: int, month: int, day: int)
    requires ValidDate(year, month, day)
    ensures DateCode(year, month, day) == (year % 100) * 10000 + month * 100 + day
    ensures 101 <= DateCode(year, month, day) <= 991231
    ensures DateCode(year, month, day) / 10000 == year % 100
    ensures DateCode(year, month, day) / 100 % 100 == month
    ensures DateCode(year, month, day) % 100 == day
  {
    var c := (year % 100) * 10000 + month * 100 + day;
    assert 0 <= c <= 991231;
    assert c == (year % 100) * 10000 + (month * 100 + day);
    assert 0 <= month * 100 + day < 10000;
    DivMod10000(c, year % 100, month * 100 + day);
    DivMod100(month * 100 + day, month, day);
    assert c / 100 == (year % 100) * 100 + month by {
      assert c == ((year % 100) * 100 + month) * 100 + day;
      DivMod100(c, (year % 100) * 100 + month, day);
    }
    DivMod100(c / 100, year % 100, month);
  }

  /** For a valid clock reading the code is hhmmss exactly, so it is at most 235959. */
  lemma TimeCodeDigits(hour: int, minute: int, second: int)
    requires ValidTime(hour, minute, second)
    ensures TimeCode(hour, minute, second) == hour * 10000 + minute * 100 + second
    ensures TimeCode(hour, minute, second) <= 235959
    ensures TimeCode(hour, minute, second) / 10000 == hour
    ensures TimeCode(hour, minute, second) / 100 % 100 == minute
    ensures TimeCode(hour, minute, second) % 100 == second
  {
    var c := hour * 10000 + minute * 100 + second;
    assert c == hour * 10000 + (minute * 100 + second);
    DivMod10000(c, hour, minute * 100 + second);
    DivMod100(minute * 100 + second, minute, second);
    assert c / 100 == hour * 100 + minute by {
      assert c == (hour * 100 + minute) * 100 + second;
      DivMod100(c, hour * 100 + minute, second);
    }
    DivMod100(c / 100, hour, minute);
  }

  /** A two-digit field packed below q splits back out. */
  lemma DivMod100(c: int, q: int, r: int)
    requires 0 <= r < 100 && c == q * 100 + r
    ensures c / 100 == q && c % 100 == r
  {
  }

  /** A four-digit field packed below q splits back out. */
  lemma DivMod10000(c: int, q: int, r: int)
    requires 0 <= r < 10000 && c == q * 10000 + r
    ensures c / 10000 == q && c % 10000 == r
  {
  }

  /** Two valid dates share a code exactly when they agree on yy, mm and dd. */
  lemma DateCodeInjective(y1: int, m1: int, d1: int, y2: int, m2: int, d2: int)
    requires ValidDate(y1, m1, d1) && ValidDate(y2, m2, d2)
    ensures DateCode(y1, m1, d1) == DateCode(y2, m2, d2) <==>
      y1 % 100 == y2 % 100 && m1 == m2 && d1 == d2
  {
    DateCodeDigits(y1, m1, d1);
    DateCodeDigits(y2, m2, d2);
  }

  /** The date code orders valid dates as (yy, mm, dd) does, lexicographically. */
  lemma DateCodeOrder(y1: int, m1: int, d1: int, y2: int, m2: int, d2: int)
    requires ValidDate(y1, m1, d1) && ValidDate(y2, m2, d2)
    ensures DateCode(y1, m1, d1) < DateCode(y2, m2, d2) <==>
      || y1 % 100 < y2 % 100
      || (y1 % 100 == y2 % 100 && m1 < m2)
      || (y1 % 100 == y2 % 100 && m1 == m2 && d1 < d2)
  {
    DateCodeDigits(y1, m1, d1);
    DateCodeDigits(y2, m2, d2);
  }

  /** Two valid clock readings share a code exactly when they are the same time. */
  lemma TimeCodeInjective(h1: int, n1: int, s1: int, h2: int, n2: int, s2: int)
    requires ValidTime(h1, n1, s1) && ValidTime(h2, n2, s2)
    ensures TimeCode(h1, n1, s1) == TimeCode(h2, n2, s2) <==> h1 == h2 && n1 == n2 && s1 == s2
  {
    TimeCodeDigits(h1, n1, s1);
    TimeCodeDigits(h2, n2, s2);
  }

  /** The time code orders valid clock readings as (hh, mm, ss) does. */
  lemma TimeCodeOrder(h1: int, n1: int, s1: int, h2: int, n2: int, s2: int)
    requires ValidTime(h1, n1, s1) && ValidTime(h2, n2, s2)
    ensures TimeCode(h1, n1, s1) < TimeCode(h2, n2, s2) <==>
      || h1 < h2 || (h1 == h2 && n1 < n2) || (h1 == h2 && n1 == n2 && s1 < s2)
  {
    TimeCodeDigits(h1, n1, s1);
    TimeCodeDigits(h2, n2, s2);
  }

  /**
   * Before year 0 Go's % keeps the sign, the sum is negative and the uint32
   * conversion wraps it far above every code of a valid date.
   */
  lemma NegativeYearWraps(year: int, month: int, day: int)
    requires -100 < year < 0 && 1 <= month <= 12 && 1 <= day <= 31
    ensures DateCode(year, month, day) > 991231
    ensures DateCode(year, month, day) == 0x1_0000_0000 + year * 10000 + month * 100 + day
  {
    assert GoRem(year, 100) == year;
  }

  /** updateNow: store both codes in the cache the devices read. */
  method UpdateNow(host: Host, t: Now)
    modifies host`lastDate, host`lastTime
    ensures host.lastDate == DateCode(t.year, t.month, t.day)
    ensures host.lastTime == TimeCode(t.hour, t.minute, t.second)
  {
    var dt := DateCode(t.year, t.month, t.day);
    var tm := TimeCode(t.hour, t.minute, t.second);
    host.lastDate := dt;
    host.lastTime := tm;
  }
}

=== FILE: device.dfy ===
/**
 * device.go: the three output devices and the descriptor that builds one.
 * The operating system is a Host object: the standard output stream, a map
 * from file names to contents, the names whose open fails, and the clock
 * cache (lastDate/lastTime) that log.go refreshes.
 */
module Devices {
  import opened Wrappers
  import opened Text

  /** What the devices see of the process and the operating system. */
  class Host {
    var stdout: string
    var files: map<string, string>
    /** File names that os.OpenFile cannot open (permissions, bad paths, ...). */
    var unopenable: set<string>
    /** The cached date and time codes written by updateNow. */
    var lastDate: nat
    var lastTime: nat
  }

  /** strings.SplitN(define, ":", 2): the kind before the first ':' and the rest. */
  function SplitDescriptor(define: string): (r: (string, string))
    ensures ':' !in r.0
    ensures ':' in define ==> r.0 + ":" + r.1 == define
    ensures ':' !in define ==> r.0 == define && r.1 == ""
  {
    match FirstIndex(define, ':')
    case None => (define, "")
    case Some(k) =>
      assert define == define[..k] + ":" + define[k + 1..];
      (define[..k], define[k + 1..])
  }

  /** The kinds deviceMap can build, with the arguments a file device keeps. */
  datatype DeviceDesc = FileDesc(prefix: string) | StdoutDesc | ConsoleDesc

  /**
   * The device NewDevice builds from a descriptor; None for a kind with no
   * constructor. A file device's prefix is what follows "file:", so the
   * descriptor can be rebuilt from it.
   */
  function DescOf(define: string): (r: Option<DeviceDesc>)
    ensures r.None? <==> SplitDescriptor(define).0 !in ["file", "stdout", "console"]
    ensures r.Some? && r.value.FileDesc? && ':' in define ==> define == "file:" + r.value.prefix
    ensures r.Some? && r.value.FileDesc? && ':' !in define ==> define == "file" && r.value.prefix == ""
  {
    var (kind, args) := SplitDescriptor(define);
    if kind == "file" then Some(FileDesc(args))
    else if kind == "stdout" then Some(StdoutDesc)
    else if kind == "console" then Some(ConsoleDesc)
    else None
  }

  /**
   * Only the first ':' splits: a file descriptor keeps every further ':' in
   * its prefix, and the other kinds ignore their arguments.
   */
  lemma DescOfWithArgs(args: string)
    ensures DescOf("file:" + args) == Some(FileDesc(args))
    ensures DescOf("stdout:" + args) == Some(StdoutDesc)
    ensures DescOf("console:" + args) == Some(ConsoleDesc)
  {
    FileWithArgs(args);
    StdoutWithArgs(args);
    ConsoleWithArgs(args);
  }

  /** A file descriptor keeps everything after the first ':' as its prefix. */
  lemma FileWithArgs(args: string)
    ensures DescOf("file:" + args) == Some(FileDesc(args))
  {
    assert "file:" + args == "file" + ":" + args;
    FirstAfterKind("file", args);
  }

  /** A stdout descriptor ignores its arguments. */
  lemma StdoutWithArgs(args: string)
    ensures DescOf("stdout:" + args) == Some(StdoutDesc)
  {
    assert "stdout:" + args == "stdout" + ":" + args;
    FirstAfterKind("stdout", args);
  }

  /** A console descriptor ignores its arguments. */
  lemma ConsoleWithArgs(args: string)
    ensures DescOf("console:" + args) == Some(ConsoleDesc)
  {
    assert "console:" + args == "console" + ":" + args;
    FirstAfterKind("console", args);
  }

  /** A descriptor without ':' is all kind and no arguments. */
  lemma DescOfBare()
    ensures DescOf("file") == Some(FileDesc(""))
    ensures DescOf("stdout") == Some(StdoutDesc)
    ensures DescOf("console") == Some(ConsoleDesc)
  {
    assert ':' !in "file" && ':' !in "stdout" && ':' !in "console";
  }

  /** A descriptor `kind:args` splits at the ':' that ends the kind. */
  lemma {:induction false} FirstAfterKind(kind: string, args: string)
    requires ':' !in kind
    ensures SplitDescriptor(kind + ":" + args) == (kind, args)
  {
    var d := kind + ":" + args;
    ColonAfterKind(kind, args);
    assert d[..|kind|] == kind && d[|kind| + 1..] == args;
  }

  lemma {:induction false} ColonAfterKind(kind: string, args: string)
    requires ':' !in kind
    ensures FirstIndex(kind + ":" + args, ':') == Some(|kind|)
  {
    var d := kind + ":" + args;
    if kind == [] {
      assert d[0] == ':';
    } else {
      assert d[0] == kind[0] && d[1..] == kind[1..] + ":" + args;
      ColonAfterKind(kind[1..], args);
    }
  }

  /** The name of a day's log file: `<prefix>-<date>.log`. */
  function FileName(prefix: string, date: nat): string
  {
    prefix + "-" + Decimal(date) + ".log"
  }

  /** A file name is the prefix, a '-', the date's digits and ".log", in that order. */
  lemma FileNameLayout(prefix: string, date: nat)
    ensures |FileName(prefix, date)| == |prefix| + |Decimal(date)| + 5
    ensures FileName(prefix, date)[..|prefix|] == prefix && FileName(prefix, date)[|prefix|] == '-'
    ensures FileName(prefix, date)[|prefix| + 1..|FileName(prefix, date)| - 4] == Decimal(date)
    ensures FileName(prefix, date)[|FileName(prefix, date)| - 4..] == ".log"
  {
  }

  /** Different dates never share a file. */
  lemma FileNameInjective(prefix: string, d1: nat, d2: nat)
    requires FileName(prefix, d1) == FileName(prefix, d2)
    ensures d1 == d2
  {
    FileNameLayout(prefix, d1);
    FileNameLayout(prefix, d2);
    DecimalInjective(d1, d2);
  }

  /** The file map after `data` is written to `name`; an empty write does nothing. */
  function Appended(files: map<string, string>, name: string, data: string): map<string, string>
  {
    if data == "" then files
    else files[name := (if name in files then files[name] else "") + data]
  }

  /** The file map after opening `name` in append/create mode: existing content stays. */
  function Created(files: map<string, string>, name: string): map<string, string>
  {
    if name in files then files else files[name := ""]
  }

  /** The concatenation of a sequence of writes. */
  function Concat(ps: seq<string>): string
  {
    if ps == [] then "" else Concat(ps[..|ps| - 1]) + ps[|ps| - 1]
  }

  lemma ConcatSnoc(ps: seq<string>, p: string)
    ensures Concat(ps + [p]) == Concat(ps) + p
  {
    assert (ps + [p])[..|ps|] == ps;
  }

  /** Every payload a device was handed, with its own state. */
  datatype Snapshot = Snapshot(received: seq<string>, state: DeviceState)

  /** A device's own state, apart from the payloads it was handed; ghost parts included. */
  datatype DeviceState =
    | FileState(file: Option<string>, writer: Option<string>, pending: string, lastdate: nat,
                kept: string, flushed: string)
    | StdoutState(pending: string, emitted: string)
    | ConsoleState

  /**
   * FileDevice: a buffered writer over the file of the current date.
   * `file` is the open handle (its name), `writer` the file the bufio.Writer
   * wraps, `pending` its unflushed bytes. The ghost fields record every
   * payload handed to Write, the bytes accepted into the buffer and the
   * bytes already flushed to a file.
   */
  class FileDevice {
    const prefix: string
    var file: Option<string>
    var writer: Option<string>
    var pending: string
    var lastdate: nat
    ghost var received: seq<string>
    ghost var kept: string
    ghost var flushed: string

    /** No accepted byte is lost: flushed bytes then pending bytes are all of them. */
    ghost predicate Valid()
      reads this
    {
      FileInvariant(State())
    }

    /** createFileDevice: nothing is open until the first Write. */
    constructor(prefix: string)
      ensures Valid() && this.prefix == prefix
      ensures file == None && writer == None && pending == "" && lastdate == 0
      ensures received == [] && kept == "" && flushed == ""
    {
      this.prefix := prefix;
      file, writer, pending, lastdate := None, None, "", 0;
      received, kept, flushed := [], "", "";
    }

    /** bufio.Writer.Flush: the pending bytes go to the wrapped file. */
    method FlushWriter(host: Host)
      requires Valid()
      modifies this`pending, this`flushed, host`files
      ensures Valid()
      ensures pending == ""
      ensures host.files == (if writer.Some? then Appended(old(host.files), writer.value, old(pending))
                             else old(host.files))
      ensures flushed == old(flushed) + old(pending)
    {
      if writer.Some? && pending != "" {
        host.files := Appended(host.files, writer.value, pending);
        flushed := flushed + pending;
        pending := "";
      }
    }

    /** The device's own state, apart from the payloads it was handed. */
    ghost function State(): DeviceState
      reads this
    {
      FileState(file, writer, pending, lastdate, kept, flushed)
    }

    /** Write at the cached date, as StateOnWrite and FilesOnWrite describe. */
    method Write(p: string, host: Host)
      requires Valid()
      modifies this, host`files
      ensures Valid()
      ensures received == old(received) + [p]
      ensures State() == StateOnWrite(FileDesc(prefix), old(State()), p, host.lastDate, host.unopenable)
      ensures host.files == FilesOnWrite(FileDesc(prefix), old(State()), old(host.files), host.lastDate, host.unopenable)
    {
      ghost var st, fs := State(), host.files;
      var date := host.lastDate;
      WriteKeepsAccepted(FileDesc(prefix), st, p, date, host.unopenable);
      if file.Some? && lastdate == date {
        pending := pending + p;
        kept := kept + p;
        received := received + [p];
        return;
      }
      if file.Some? {
        FlushWriter(host);
        file := None;
      }
      ghost var closed := if st.file.Some? then Appended(fs, st.file.value, st.pending) else fs;
      ghost var flushed := if st.file.Some? then st.flushed + st.pending else st.flushed;
      assert host.files == closed && this.flushed == flushed && file == None;
      var filename := FileName(prefix, date);
      if filename in host.unopenable {
        received := received + [p];
        assert State() == st.(file := None, pending := "", flushed := flushed);
        return;
      }
      host.files := Created(host.files, filename);
      file, writer := Some(filename), Some(filename);
      pending, lastdate := p, date;
      kept := kept + p;
      received := received + [p];
    }

    /** Flush: drain the buffer into the file; a no-op without a writer. */
    method Flush(host: Host)
      requires Valid()
      modifies this`pending, this`flushed, host`files
      ensures Valid()
      ensures pending == ""
      ensures host.files == (if old(writer).Some? then Appended(old(host.files), writer.value, old(pending))
                             else old(host.files))
      ensures old(pending) == "" ==> host.files == old(host.files) && flushed == old(flushed)
      ensures State() == StateOnFlush(old(State()))
    {
      if writer.Some? {
        FlushWriter(host);
      }
    }
  }

  /**
   * StdoutDevice: a bufio.Writer over standard output. What this device has
   * emitted, followed by what it still buffers, is every write in order.
   */
  class StdoutDevice {
    var pending: string
    ghost var received: seq<string>
    ghost var emitted: string

    ghost predicate Valid()
      reads this
    {
      emitted + pending == Concat(received)
    }

    ghost function State(): DeviceState
      reads this
    {
      StdoutState(pending, emitted)
    }

    constructor()
      ensures Valid() && pending == "" && received == [] && emitted == ""
    {
      pending, received, emitted := "", [], "";
    }

    method Write(p: string)
      requires Valid()
      modifies this
      ensures Valid()
      ensures pending == old(pending) + p && emitted == old(emitted)
      ensures received == old(received) + [p]
    {
      ConcatSnoc(received, p);
      pending := pending + p;
      received := received + [p];
    }

    method Flush(host: Host)
      requires Valid()
      modifies this`pending, this`emitted, host`stdout
      ensures Valid()
      ensures host.stdout == old(host.stdout) + old(pending)
      ensures pending == "" && emitted == old(emitted) + old(pending)
    {
      host.stdout := host.stdout + pending;
      emitted := emitted + pending;
      pending := "";
    }
  }

  /** ConsoleDevice: unbuffered; each write goes straight to standard output. */
  class ConsoleDevice {
    ghost var received: seq<string>

    constructor()
      ensures received == []
    {
      received := [];
    }

    method Write(p: string, host: Host)
      modifies this, host`stdout
      ensures host.stdout == old(host.stdout) + p
      ensures received == old(received) + [p]
    {
      host.stdout := host.stdout + p;
      received := received + [p];
    }

    /** Nothing is buffered, so there is nothing to flush. */
    method Flush()
    {
    }
  }

  /** The Device interface: one of the three kinds. */
  datatype Device = File(f: FileDevice) | Stdout(s: StdoutDevice) | Console(c: ConsoleDevice)
  {
    /** The device object itself: never a host, buffer, pool or logger. */
    function Obj(): (o: object)
      ensures o is FileDevice || o is StdoutDevice || o is ConsoleDevice
    {
      match this
      case File(f) => f
      case Stdout(s) => s
      case Console(c) => c
    }

    /** What the device was built from. */
    function Desc(): DeviceDesc
    {
      match this
      case File(f) => FileDesc(f.prefix)
      case Stdout(_) => StdoutDesc
      case Console(_) => ConsoleDesc
    }

    ghost predicate Valid()
      reads Obj()
    {
      match this
      case File(f) => f.Valid()
      case Stdout(s) => s.Valid()
      case Console(_) => true
    }

    /** Every payload handed to the device's Write, in order. */
    ghost function Received(): seq<string>
      reads Obj()
    {
      match this
      case File(f) => f.received
      case Stdout(s) => s.received
      case Console(c) => c.received
    }

    /** The device's own state. */
    ghost function State(): DeviceState
      reads Obj()
    {
      match this
      case File(f) => f.State()
      case Stdout(s) => s.State()
      case Console(_) => ConsoleState
    }

    /** What the device has been handed, with its own state. */
    ghost function Snap(): Snapshot
      reads Obj()
    {
      Snapshot(Received(), State())
    }

    /** Freshly built: nothing received, nothing buffered, no file open, date 0. */
    ghost predicate Pristine()
      reads Obj()
    {
      && Received() == []
      && State() == match this
                    case File(_) => FileState(None, None, "", 0, "", "")
                    case Stdout(_) => StdoutState("", "")
                    case Console(_) => ConsoleState
    }

    /** Standard output after this device writes p: only the console prints it at once. */
    function StdoutOnWrite(out: string, p: string): string
    {
      match this
      case Console(_) => out + p
      case _ => out
    }

    /** Bytes written but not yet handed to the operating system. */
    ghost function Pending(): string
      reads Obj()
    {
      PendingOf(State())
    }
  }

  /**
   * The state after a device built from `desc`, in state `st`, writes p at
   * `date`. A file device with that day's file open only buffers p.
   * Otherwise an open file is flushed and closed, then `<prefix>-<date>.log`
   * is opened and p buffered; when the open fails p is dropped, no file is
   * open and the old date stays. A stdout device buffers p; a console
   * device keeps no state.
   */
  function StateOnWrite(desc: DeviceDesc, st: DeviceState, p: string, date: nat,
                        unopenable: set<string>): DeviceState
  {
    if st.StdoutState? then st.(pending := st.pending + p)
    else if !st.FileState? || !desc.FileDesc? then st
    else if st.file.Some? && st.lastdate == date then st.(pending := st.pending + p, kept := st.kept + p)
    else
      var name := FileName(desc.prefix, date);
      var flushed := if st.file.Some? then st.flushed + st.pending else st.flushed;
      if name in unopenable then st.(file := None, pending := "", flushed := flushed)
      else st.(file := Some(name), writer := Some(name), pending := p, lastdate := date,
               kept := st.kept + p, flushed := flushed)
  }

  /**
   * The files after a device built from `desc`, in state `st`, writes at
   * `date`. Only a file device touches them: a file still open from another
   * date receives its pending bytes and is closed, then that day's file is
   * created unless it cannot be opened. The payload itself only reaches the
   * buffer.
   */
  function FilesOnWrite(desc: DeviceDesc, st: DeviceState, files: map<string, string>, date: nat,
                        unopenable: set<string>): map<string, string>
  {
    if !st.FileState? || !desc.FileDesc? || (st.file.Some? && st.lastdate == date) then files
    else
      var name := FileName(desc.prefix, date);
      var closed := if st.file.Some? then Appended(files, st.file.value, st.pending) else files;
      if name in unopenable then closed else Created(closed, name)
  }

  /** The bytes a device in state `st` holds back: a file or stdout device's buffer. */
  function PendingOf(st: DeviceState): string
  {
    if st.ConsoleState? then "" else st.pending
  }

  /**
   * The state after a device in state `st` is flushed. A file device with a
   * writer drains its buffer into the file and a stdout device into standard
   * output; nothing else changes. A file device without a writer is left
   * alone.
   */
  function StateOnFlush(st: DeviceState): DeviceState
  {
    match st
    case FileState(_, writer, pending, _, _, flushed) =>
      if writer.Some? then st.(pending := "", flushed := flushed + pending) else st
    case StdoutState(pending, emitted) => st.(pending := "", emitted := emitted + pending)
    case ConsoleState => st
  }

  /** Standard output after a device in state `st` is flushed: a stdout device's buffer reaches it. */
  function StdoutOnFlush(st: DeviceState, out: string): string
  {
    if st.StdoutState? then out + st.pending else out
  }

  /** The files after a device in state `st` is flushed: a file device drains into its writer's file. */
  function FilesOnFlush(st: DeviceState, files: map<string, string>): map<string, string>
  {
    if st.FileState? && st.writer.Some? then Appended(files, st.writer.value, st.pending) else files
  }

  /** The file device's invariant on a state: only an open file buffers, and no accepted byte is lost. */
  predicate FileInvariant(st: DeviceState)
  {
    st.FileState? ==>
      && (st.file.Some? ==> st.writer == st.file)
      && (st.pending != "" ==> st.file.Some?)
      && st.flushed + st.pending == st.kept
  }

  /**
   * A write keeps the file device's invariant and never takes back a
   * flushed byte. The payload is accepted, unless that day's file cannot be
   * opened: then it is dropped and no file is open.
   */
  lemma WriteKeepsAccepted(desc: DeviceDesc, st: DeviceState, p: string, date: nat, unopenable: set<string>)
    requires desc.FileDesc? && st.FileState? && FileInvariant(st)
    ensures var r := StateOnWrite(desc, st, p, date, unopenable);
      && FileInvariant(r)
      && st.flushed <= r.flushed
      && (|| r.kept == st.kept + p
          || (r.kept == st.kept && r.file.None? && FileName(desc.prefix, date) in unopenable))
  {
    var r := StateOnWrite(desc, st, p, date, unopenable);
    if st.file.Some? && st.lastdate == date {
      assert r.flushed + r.pending == st.flushed + (st.pending + p);
    } else if st.file.Some? {
      assert r.flushed == st.flushed + st.pending;
    } else {
      assert st.pending == "";
      assert st.flushed + st.pending == st.flushed;
    }
  }

  /**
   * A flush leaves nothing pending and keeps the file device's invariant.
   * Nothing accepted is lost: a file device keeps every accepted byte, and
   * a stdout device has emitted what it had emitted and buffered.
   */
  lemma FlushDrains(st: DeviceState)
    requires FileInvariant(st)
    ensures var r := StateOnFlush(st);
      && FileInvariant(r) && PendingOf(r) == ""
      && (st.FileState? ==> r.kept == st.kept && r.flushed == st.flushed + st.pending)
      && (st.StdoutState? ==> r.emitted == st.emitted + st.pending)
  {
    if st.FileState? && st.writer.None? {
      assert st.pending == "";
      assert st.flushed + st.pending == st.flushed;
    }
  }

  /** NewDevice: split the descriptor and build the device its kind names. */
  method NewDevice(define: string) returns (d: Option<Device>)
    ensures d.None? <==> DescOf(define).None?
    ensures d.Some? ==> && d.value.Desc() == DescOf(define).value
                        && fresh(d.value.Obj()) && d.value.Valid() && d.value.Pristine()
                        && d.value.Pending() == ""
  {
    var (kind, args) := SplitDescriptor(define);
    if kind == "file" {
      var f := new FileDevice(args);
      d := Some(File(f));
    } else if kind == "stdout" {
      var s := new StdoutDevice();
      d := Some(Stdout(s));
    } else if kind == "console" {
      var c := new ConsoleDevice();
      d := Some(Console(c));
    } else {
      d := None;
    }
  }

  /**
   * Device.Write, dispatched on the kind: the console prints the payload,
   * standard output buffers it, and a file device rotates or opens its file
   * as needed and buffers it.
   */
  method DeviceWrite(d: Device, p: string, host: Host)
    requires d.Valid()
    modifies d.Obj(), host`stdout, host`files
    ensures d.Valid()
    ensures d.Received() == old(d.Received()) + [p]
    ensures d.State() == StateOnWrite(d.Desc(), old(d.State()), p, host.lastDate, host.unopenable)
    ensures host.stdout == d.StdoutOnWrite(old(host.stdout), p)
    ensures host.files == FilesOnWrite(d.Desc(), old(d.State()), old(host.files), host.lastDate, host.unopenable)
  {
    match d
    case File(f) => f.Write(p, host);
    case Stdout(s) => s.Write(p);
    case Console(c) => c.Write(p, host);
  }

  /** Device.Flush, dispatched on the kind: the pending bytes reach their destination. */
  method DeviceFlush(d: Device, host: Host)
    requires d.Valid()
    modifies d.Obj(), host`stdout, host`files
    ensures d.Valid()
    ensures d.Received() == old(d.Received()) && d.Pending() == ""
    ensures d.State() == StateOnFlush(old(d.State()))
    ensures host.stdout == StdoutOnFlush(old(d.State()), old(host.stdout))
    ensures host.files == FilesOnFlush(old(d.State()), old(host.files))
  {
    match d
    case File(f) => f.Flush(host);
    case Stdout(s) => s.Flush(host);
    case Console(c) => c.Flush();
  }
}

=== FILE: formatter.dfy ===
/**
 * format.go: the level tables, the buffer pool and the default record
 * layout. The timestamp text and the caller location come from outside
 * (time.Now().Format and runtime.Caller) and are parameters here.
 */
module Formatter {
  import opened Wrappers
  import opened Text
  import opened Levels

  /** getLevelStr: the one-letter tag of a level; unknown levels read as 'I'. */
  function LevelLetter(level: int): (r: char)
    ensures r in "DIWEF"
    ensures (r == 'I') == (level !in {DEBUG, WARN, ERROR, FATAL})
  {
    if level == DEBUG then 'D'
    else if level == INFO then 'I'
    else if level == WARN then 'W'
    else if level == ERROR then 'E'
    else if level == FATAL then 'F'
    else 'I'
  }

  /** getLevelStr2: the name of a level; unknown levels, DISABLE among them, read as "INFO". */
  function LevelName(level: int): (r: string)
    ensures r in ["DEBUG", "INFO", "WARN", "ERROR", "FATAL"]
    ensures (r == "INFO") == (level !in {DEBUG, WARN, ERROR, FATAL})
  {
    if level == DEBUG then "DEBUG"
    else if level == INFO then "INFO"
    else if level == WARN then "WARN"
    else if level == ERROR then "ERROR"
    else if level == FATAL then "FATAL"
    else "INFO"
  }

  /** The two tables agree: every tag is the first letter of the name. */
  lemma LetterIsInitial(level: int)
    ensures |LevelName(level)| >= 4 && LevelLetter(level) == LevelName(level)[0]
  {
  }

  /**
   * The names the formatter prints parse back to their level, and so do the
   * one-letter tags, for the four configurable levels; FATAL and DISABLE
   * do not survive the trip (both come back as INFO).
   */
  lemma LevelNameRoundTrip(level: int)
    ensures DEBUG <= level <= ERROR ==>
      LevelFromStr(LevelName(level)) == level && LevelFromStr([LevelLetter(level)]) == level
    ensures LevelFromStr(LevelName(FATAL)) == INFO && LevelFromStr(LevelName(DISABLE)) == INFO
  {
    assert Lower("DEBUG") == "debug";
    assert Lower("INFO") == "info";
    assert Lower("WARN") == "warn";
    assert Lower("ERROR") == "error";
    assert Lower("FATAL") == "fatal";
    assert Lower("D") == "d";
    assert Lower("I") == "i";
    assert Lower("W") == "w";
    assert Lower("E") == "e";
  }

  /** A bytes.Buffer: its content is the only state that matters here. */
  class Buffer {
    var data: string

    constructor()
      ensures data == ""
    {
      data := "";
    }
  }

  /**
   * buffPool: the contents of the idle buffers, most recently pooled last.
   * put resets a buffer before pooling it, which is what keeps every idle
   * buffer empty; get hands out the last idle buffer, or a new one when
   * none is idle. A buffer taken out is a new object carrying the pooled
   * contents: nothing else holds a pooled buffer, so its identity is not
   * observable.
   */
  class BuffPool {
    var free: seq<string>

    ghost predicate Valid()
      reads this
    {
      forall i :: 0 <= i < |free| ==> free[i] == ""
    }

    constructor()
      ensures Valid() && free == []
    {
      free := [];
    }

    /** get: every buffer it hands out is empty. */
    method Get() returns (b: Buffer)
      requires Valid()
      modifies this
      ensures Valid() && fresh(b) && b.data == ""
      ensures old(free) == [] ==> free == []
      ensures old(free) != [] ==> free == old(free)[..|old(free)| - 1]
    {
      b := new Buffer();
      if free != [] {
        b.data := free[|free| - 1];
        free := free[..|free| - 1];
      }
    }

    /** put: reset the buffer, then pool it. */
    method Put(b: Buffer)
      requires Valid()
      modifies this, b
      ensures Valid() && b.data == "" && free == old(free) + [""]
    {
      b.data := "";
      free := free + [b.data];
    }
  }

  /** A get followed by a put leaves the pool as it was, or with one idle buffer if it was empty. */
  lemma GetThenPut(free: seq<string>)
    requires forall i :: 0 <= i < |free| ==> free[i] == ""
    ensures free != [] ==> free[..|free| - 1] + [""] == free
  {
    if free != [] {
      assert free[|free| - 1] == "";
    }
  }

  /** Where the record was logged from, as runtime.Caller reports it. */
  datatype Caller = Caller(file: string, line: int)

  /** The basename scan needs a '/' before the last character of the path. */
  predicate HasSlash(file: string)
  {
    exists j :: 0 <= j <= |file| - 2 && file[j] == '/'
  }

  /** The last '/' at or before index i. */
  function LastSlash(file: string, i: int): (k: nat)
    requires i < |file|
    requires exists j :: 0 <= j <= i && file[j] == '/'
    ensures k <= i && file[k] == '/'
    ensures forall j :: k < j <= i ==> file[j] != '/'
    decreases i
  {
    if file[i] == '/' then i else LastSlash(file, i - 1)
  }

  /**
   * The file's base name: the text after the last '/' that stands before
   * the final character. A '/' in the final position is not looked at.
   */
  function BaseName(file: string): (r: string)
    requires HasSlash(file)
    ensures 1 <= |r| < |file| && r == file[|file| - |r|..]
    ensures file[|file| - |r| - 1] == '/'
    ensures forall j :: 0 <= j < |r| - 1 ==> r[j] != '/'
  {
    file[LastSlash(file, |file| - 2) + 1..]
  }

  /** The backward scan of Format: the index where the base name starts. */
  method BaseStart(file: string) returns (i: int)
    requires HasSlash(file)
    ensures 0 < i < |file| && file[i..] == BaseName(file)
  {
    i := |file| - 2;
    while i >= 0 && file[i] != '/'
      invariant 0 <= i <= |file| - 2
      invariant exists j :: 0 <= j <= i && file[j] == '/'
      invariant forall j :: i < j <= |file| - 2 ==> file[j] != '/'
      decreases i
    {
      i := i - 1;
    }
    i := i + 1;
  }

  /** " <basename>:<line>" when the caller is known, nothing otherwise. */
  function CallerPart(caller: Option<Caller>): string
    requires caller.Some? ==> HasSlash(caller.value.file)
  {
    match caller
    case None => ""
    case Some(c) => " " + BaseName(c.file) + ":" + IntDecimal(c.line)
  }

  /**
   * The record layout: stamp, level name, optional caller, "] ", message,
   * newline. Without a caller a record has exactly four characters besides
   * its stamp, level name and message.
   */
  function Record(stamp: string, level: int, caller: Option<Caller>, msg: string): (r: string)
    requires caller.Some? ==> HasSlash(caller.value.file)
    ensures |r| > |stamp| + 1 + |LevelName(level)| + |msg|
    ensures caller.None? ==> |r| == |stamp| + |LevelName(level)| + |msg| + 4
    ensures r[|r| - 1] == '\n'
  {
    stamp + " " + LevelName(level) + CallerPart(caller) + "] " + msg + "\n"
  }

  /**
   * Every record starts with its stamp, names its level right after it and
   * carries the message just before its final newline.
   */
  lemma RecordShape(stamp: string, level: int, caller: Option<Caller>, msg: string)
    requires caller.Some? ==> HasSlash(caller.value.file)
    ensures var r := Record(stamp, level, caller, msg);
      && r[..|stamp|] == stamp
      && r[|stamp|] == ' '
      && r[|stamp| + 1..|stamp| + 1 + |LevelName(level)|] == LevelName(level)
      && r[|r| - 1 - |msg|..|r| - 1] == msg
  {
    var name, tail := LevelName(level), CallerPart(caller) + "] " + msg + "\n";
    var r := Record(stamp, level, caller, msg);
    assert r == stamp + [' '] + name + tail;
    assert r == (stamp + " " + name + CallerPart(caller) + "] ") + msg + "\n";
  }

  /**
   * DefaultFormatter.Format: lays the record out in a buffer taken from the
   * pool, so the buffer holds exactly this record.
   */
  method Format(level: int, msg: string, stamp: string, caller: Option<Caller>, pool: BuffPool)
    returns (buff: Buffer)
    requires pool.Valid()
    requires caller.Some? ==> HasSlash(caller.value.file)
    modifies pool
    ensures pool.Valid() && fresh(buff)
    ensures buff.data == Record(stamp, level, caller, msg)
    ensures old(pool.free) == [] ==> pool.free == []
    ensures old(pool.free) != [] ==> pool.free == old(pool.free)[..|old(pool.free)| - 1]
  {
    buff := pool.Get();
    WriteRecord(buff, level, msg, stamp, caller);
  }

  /** The appends of Format, into a buffer that starts empty. */
  method WriteRecord(buff: Buffer, level: int, msg: string, stamp: string, caller: Option<Caller>)
    requires buff.data == ""
    requires caller.Some? ==> HasSlash(caller.value.file)
    modifies buff
    ensures buff.data == Record(stamp, level, caller, msg)
  {
    WriteHead(buff, stamp, level);
    WriteCaller(buff, caller);
    WriteTail(buff, msg);
  }

  /** The stamp, a space and the level name. */
  method WriteHead(buff: Buffer, stamp: string, level: int)
    requires buff.data == ""
    modifies buff
    ensures buff.data == stamp + " " + LevelName(level)
  {
    buff.data := buff.data + stamp;
    buff.data := buff.data + " ";
    buff.data := buff.data + LevelName(level);
  }

  /** " <basename>:<line>" when runtime.Caller succeeded. */
  method WriteCaller(buff: Buffer, caller: Option<Caller>)
    requires caller.Some? ==> HasSlash(caller.value.file)
    modifies buff
    ensures buff.data == old(buff.data) + CallerPart(caller)
  {
    if caller.Some? {
      var file := caller.value.file;
      buff.data := buff.data + [' '];
      var i := BaseStart(file);
      buff.data := buff.data + file[i..];
      buff.data := buff.data + [':'];
      buff.data := buff.data + IntDecimal(caller.value.line);
    }
  }

  /** "] ", the message and the closing newline. */
  method WriteTail(buff: Buffer, msg: string)
    modifies buff
    ensures buff.data == old(buff.data) + "] " + msg + "\n"
  {
    buff.data := buff.data + "] ";
    buff.data := buff.data + msg;
    buff.data := buff.data + ['\n'];
  }
}

=== FILE: levels.dfy ===
/**
 * The severity levels of log.go and the parsing of a level name.
 * Levels are Go `int`s: any integer can reach the formatter, and only the
 * six constants below have names.
 */
module Levels {
  import opened Text

  const DEBUG: int := 0
  const INFO: int := 1
  const WARN: int := 2
  const ERROR: int := 3
  /** Sits between ERROR and FATAL: a writer at DISABLE still accepts FATAL. */
  const DISABLE: int := 4
  const FATAL: int := 5

  /**
   * getLevelFromStr: case-insensitive level names; an unknown name is
   * reported and read as INFO. FATAL cannot be configured.
   */
  function LevelFromStr(level: string): (r: int)
    ensures DEBUG <= r <= DISABLE
  {
    var l := Lower(level);
    if l == "d" || l == "debug" then DEBUG
    else if l == "i" || l == "info" then INFO
    else if l == "w" || l == "warn" || l == "warning" then WARN
    else if l == "e" || l == "err" || l == "error" then ERROR
    else if l == "disable" then DISABLE
    else INFO
  }

  /** The table of accepted names, each direction. */
  lemma LevelFromStrTable(level: string)
    ensures LevelFromStr(level) == DEBUG <==> Lower(level) in ["d", "debug"]
    ensures LevelFromStr(level) == WARN <==> Lower(level) in ["w", "warn", "warning"]
    ensures LevelFromStr(level) == ERROR <==> Lower(level) in ["e", "err", "error"]
    ensures LevelFromStr(level) == DISABLE <==> Lower(level) == "disable"
    ensures LevelFromStr(level) == INFO <==>
      Lower(level) !in ["d", "debug", "w", "warn", "warning", "e", "err", "error", "disable"]
  {
  }

  /** Parsing ignores case: the upper- and lower-cased spellings agree. */
  lemma LevelFromStrIgnoresCase(level: string)
    ensures LevelFromStr(Upper(level)) == LevelFromStr(level)
    ensures LevelFromStr(Lower(level)) == LevelFromStr(level)
  {
    LowerOfUpper(level);
    LowerIdempotent(level);
  }
}

=== FILE: log.dfy ===
/**
 * log.go: a logger, the writers it dispatches to, and the level filter in
 * front of them.
 */
module Log {
  import opened Wrappers
  import opened Levels
  import opened Formatter
  import opened Devices

  /** A threshold paired with the device it guards. */
  datatype Writer = Writer(level: int, device: Device)

  /**
   * UpdateLevel's result: DISABLE lowered to each writer's level in list
   * order. It is the least of DISABLE and every writer's level.
   */
  function MinLevel(ws: seq<Writer>): (m: int)
    ensures m <= DISABLE
    ensures forall i :: 0 <= i < |ws| ==> m <= ws[i].level
    ensures m == DISABLE || exists i :: 0 <= i < |ws| && ws[i].level == m
  {
    if ws == [] then DISABLE
    else
      var m' := MinLevel(ws[..|ws| - 1]);
      if ws[|ws| - 1].level < m' then ws[|ws| - 1].level else m'
  }

  /**
   * The early return of Logger.Write is exact: a level below the cached
   * minimum is refused by every writer, and a level that every writer
   * refuses is below it unless it is DISABLE or above with no writer there.
   */
  lemma FastPathSound(level: int, ws: seq<Writer>)
    ensures level < MinLevel(ws) <==>
      level < DISABLE && forall i :: 0 <= i < |ws| ==> level < ws[i].level
  {
  }

  /**
   * Filtering is monotone in the level: a writer that accepts a level
   * accepts every higher one, so FATAL passes even a DISABLE writer.
   */
  lemma {:induction false} AcceptingMonotone(l1: int, l2: int, ws: seq<Writer>)
    requires l1 <= l2
    ensures forall i :: i in Accepting(l1, ws) ==> i in Accepting(l2, ws)
    decreases |ws|
  {
    if ws != [] {
      AcceptingMonotone(l1, l2, ws[..|ws| - 1]);
    }
  }

  /** FATAL sits above DISABLE, so a writer set to DISABLE still takes FATAL records. */
  lemma FatalPassesDisabled(d: Device)
    ensures Accepting(FATAL, [Writer(DISABLE, d)]) == [0]
    ensures Accepting(ERROR, [Writer(DISABLE, d)]) == []
  {
  }

  /** The indices of the writers that accept a level, in list order. */
  function Accepting(level: int, ws: seq<Writer>): (r: seq<nat>)
    ensures forall k :: 0 <= k < |r| ==> r[k] < |ws| && level >= ws[r[k]].level
    ensures forall i :: 0 <= i < |ws| && level >= ws[i].level ==> i in r
    ensures forall j, k :: 0 <= j < k < |r| ==> r[j] < r[k]
  {
    if ws == [] then []
    else
      var r' := Accepting(level, ws[..|ws| - 1]);
      if level >= ws[|ws| - 1].level then r' + [|ws| - 1] else r'
  }

  /**
   * The writers Logger.Write hands a record to (those with level >=
   * threshold) are exactly the ones Accepting lists.
   */
  lemma AcceptingExact(level: int, ws: seq<Writer>, i: int)
    requires 0 <= i < |ws|
    ensures i in Accepting(level, ws) <==> level >= ws[i].level
  {
  }

  /** The device objects of a writer list. */
  function Objects(ws: seq<Writer>): (r: set<object>)
    ensures forall k :: 0 <= k < |ws| ==> ws[k].device.Obj() in r
    ensures forall o :: o in r ==> o is FileDevice || o is StdoutDevice || o is ConsoleDevice
  {
    if ws == [] then {} else Objects(ws[..|ws| - 1]) + {ws[|ws| - 1].device.Obj()}
  }

  /** No two writers share a device: each device is new to the writers before it. */
  predicate Distinct(ws: seq<Writer>)
  {
    ws == [] || (Distinct(ws[..|ws| - 1]) && ws[|ws| - 1].device.Obj() !in Objects(ws[..|ws| - 1]))
  }

  /** Distinct, pair by pair. */
  lemma {:induction false} DistinctApart(ws: seq<Writer>, i: nat, j: nat)
    requires Distinct(ws) && i < |ws| && j < |ws| && i != j
    ensures ws[i].device.Obj() != ws[j].device.Obj()
  {
    var p := ws[..|ws| - 1];
    if i < |p| && j < |p| {
      DistinctApart(p, i, j);
      assert p[i] == ws[i] && p[j] == ws[j];
    } else if i < |p| {
      assert p[i] == ws[i];
    } else {
      assert p[j] == ws[j];
    }
  }

  /** Objects and Distinct look only at the devices. */
  lemma {:induction false} SameDevices(ws: seq<Writer>, vs: seq<Writer>)
    requires |ws| == |vs| && forall k :: 0 <= k < |ws| ==> ws[k].device == vs[k].device
    ensures Objects(ws) == Objects(vs) && Distinct(ws) == Distinct(vs)
  {
    if ws != [] {
      SameDevices(ws[..|ws| - 1], vs[..|vs| - 1]);
    }
  }

  /** The snapshots `ss` after the first n devices are flushed; the others keep theirs. */
  function Flushed(ss: seq<Snapshot>, n: nat): (r: seq<Snapshot>)
    requires n <= |ss|
    ensures |r| == |ss|
  {
    seq(|ss|, k requires 0 <= k < |ss| => if k < n then Snapshot(ss[k].received, StateOnFlush(ss[k].state)) else ss[k])
  }

  /** Standard output after devices starting from the snapshots `ss` are flushed in list order. */
  function FlushedStdout(out: string, ss: seq<Snapshot>): string
  {
    if ss == [] then out
    else StdoutOnFlush(ss[|ss| - 1].state, FlushedStdout(out, ss[..|ss| - 1]))
  }

  /** The files after devices starting from the snapshots `ss` are flushed in list order. */
  function FlushedFiles(files: map<string, string>, ss: seq<Snapshot>): map<string, string>
  {
    if ss == [] then files
    else FilesOnFlush(ss[|ss| - 1].state, FlushedFiles(files, ss[..|ss| - 1]))
  }

  /**
   * Standard output after the writers that accept the level are handed b,
   * in list order: each console device among them prints it.
   */
  function WrittenStdout(out: string, ws: seq<Writer>, level: int, b: string): string
  {
    if ws == [] then out
    else
      var o := WrittenStdout(out, ws[..|ws| - 1], level, b);
      if level >= ws[|ws| - 1].level then ws[|ws| - 1].device.StdoutOnWrite(o, b) else o
  }

  /** Every writer's device snapshot, in list order. */
  ghost function Snapshots(ws: seq<Writer>): (r: seq<Snapshot>)
    reads Objects(ws)
    ensures |r| == |ws|
  {
    if ws == [] then [] else Snapshots(ws[..|ws| - 1]) + [ws[|ws| - 1].device.Snap()]
  }

  /** Snapshots lists each writer's device snapshot at its index. */
  lemma {:induction false} SnapshotsAt(ws: seq<Writer>)
    ensures forall k :: 0 <= k < |ws| ==> Snapshots(ws)[k] == ws[k].device.Snap()
  {
    if ws != [] {
      SnapshotsAt(ws[..|ws| - 1]);
    }
  }

  /**
   * One writer offered b at `date`: when the level meets its threshold the
   * device receives b and its state moves as StateOnWrite says; otherwise
   * nothing about it changes.
   */
  function Take(w: Writer, s: Snapshot, level: int, b: string, date: nat, unopenable: set<string>): Snapshot
  {
    if level >= w.level then Snapshot(s.received + [b], StateOnWrite(w.device.Desc(), s.state, b, date, unopenable))
    else s
  }

  /** The snapshots `ss` after the first n writers are offered b; the others keep theirs. */
  function Taken(ws: seq<Writer>, ss: seq<Snapshot>, n: nat, level: int, b: string, date: nat,
                 unopenable: set<string>): (r: seq<Snapshot>)
    requires |ss| == |ws| && n <= |ws|
    ensures |r| == |ws|
  {
    seq(|ws|, k requires 0 <= k < |ws| => if k < n then Take(ws[k], ss[k], level, b, date, unopenable) else ss[k])
  }

  /**
   * The files after the writers that accept the level write at `date`, in
   * list order, their devices starting from the snapshots `ss`: each file
   * device among them rotates or opens its file.
   */
  function WrittenFiles(files: map<string, string>, ws: seq<Writer>, ss: seq<Snapshot>, level: int,
                        date: nat, unopenable: set<string>): map<string, string>
    requires |ss| == |ws|
  {
    if ws == [] then files
    else
      var n := |ws| - 1;
      var fs := WrittenFiles(files, ws[..n], ss[..n], level, date, unopenable);
      if level >= ws[n].level then FilesOnWrite(ws[n].device.Desc(), ss[n].state, fs, date, unopenable) else fs
  }

  /**
   * After a write every writer Accepting lists has received b and moved as
   * StateOnWrite says; every other writer's snapshot is exactly as before.
   */
  lemma TakenAccepting(ws: seq<Writer>, ss: seq<Snapshot>, level: int, b: string, date: nat,
                       unopenable: set<string>, k: nat)
    requires |ss| == |ws| && k < |ws|
    ensures k in Accepting(level, ws) ==>
      Taken(ws, ss, |ws|, level, b, date, unopenable)[k] ==
        Snapshot(ss[k].received + [b], StateOnWrite(ws[k].device.Desc(), ss[k].state, b, date, unopenable))
    ensures k !in Accepting(level, ws) ==> Taken(ws, ss, |ws|, level, b, date, unopenable)[k] == ss[k]
  {
    AcceptingExact(level, ws, k);
  }

  /** When no writer accepts the level, writing changes no device, standard output or file. */
  lemma {:induction false} WrittenNone(out: string, files: map<string, string>, ws: seq<Writer>,
                                       ss: seq<Snapshot>, level: int, b: string, date: nat,
                                       unopenable: set<string>)
    requires |ss| == |ws|
    requires forall i :: 0 <= i < |ws| ==> level < ws[i].level
    ensures Taken(ws, ss, |ws|, level, b, date, unopenable) == ss
    ensures WrittenStdout(out, ws, level, b) == out
    ensures WrittenFiles(files, ws, ss, level, date, unopenable) == files
  {
    if ws != [] {
      WrittenNone(out, files, ws[..|ws| - 1], ss[..|ws| - 1], level, b, date, unopenable);
    }
  }

  /** Each writer owns its device: no two share one, and each is consistent. */
  ghost predicate OwnsDevices(ws: seq<Writer>)
    reads Objects(ws)
  {
    Distinct(ws) && forall i :: 0 <= i < |ws| ==> ws[i].device.Valid()
  }

  class Logger {
    var minLevel: int
    var writers: seq<Writer>

    /** The cached minimum is up to date and the writers own their devices. */
    ghost predicate Valid()
      reads this, Objects(writers)
    {
      && minLevel == MinLevel(writers)
      && OwnsDevices(writers)
      && this !in Objects(writers)
    }

    /** NewLogger: the writers as given, with the minimum computed. */
    constructor(ws: seq<Writer>)
      requires OwnsDevices(ws)
      ensures Valid() && writers == ws
    {
      writers := ws;
      new;
      UpdateLevel();
    }

    /** UpdateLevel: start at DISABLE and lower to each writer's level. */
    method UpdateLevel()
      modifies this`minLevel
      ensures minLevel == MinLevel(writers)
    {
      minLevel := DISABLE;
      var i := 0;
      while i < |writers|
        invariant 0 <= i <= |writers|
        invariant minLevel == MinLevel(writers[..i])
      {
        assert writers[..i + 1][..i] == writers[..i];
        if writers[i].level < minLevel {
          minLevel := writers[i].level;
        }
        i := i + 1;
      }
      assert writers[..i] == writers;
    }

    /** The append branch of Init: one more writer, then the minimum recomputed. */
    method AddWriter(w: Writer)
      requires Valid() && w.device.Valid() && w.device.Obj() !in Objects(writers)
      modifies this
      ensures Valid() && writers == old(writers) + [w]
    {
      ghost var ws := writers;
      writers := writers + [w];
      assert writers[..|writers| - 1] == ws;
      assert Objects(writers) == Objects(ws) + {w.device.Obj()} && Distinct(writers);
      forall k | 0 <= k < |ws| ensures writers[k].device.Valid() {
        assert writers[k] == ws[k];
      }
      assert OwnsDevices(writers) && this !in Objects(writers);
      label grown:
      UpdateLevel();
      forall k | 0 <= k < |writers| ensures writers[k].device.Valid() {
        assert unchanged@grown(writers[k].device.Obj());
      }
    }

    /** The index branch of SetLevel: one writer's threshold changes, then the minimum is recomputed. */
    method SetWriterLevel(index: nat, level: int)
      requires Valid() && index < |writers|
      modifies this
      ensures Valid()
      ensures writers == old(writers)[index := Writer(level, old(writers)[index].device)]
    {
      ghost var ws := writers;
      writers := writers[index := writers[index].(level := level)];
      SameDevices(ws, writers);
      UpdateLevel();
    }

    /**
     * Write: below the cached minimum nothing happens. Otherwise the record
     * is formatted once, handed to every writer whose threshold it meets,
     * and its buffer goes back to the pool exactly once.
     */
    method Write(level: int, msg: string, stamp: string, caller: Option<Caller>,
                 pool: BuffPool, host: Host) returns (released: Buffer?)
      requires Valid() && pool.Valid()
      requires caller.Some? ==> HasSlash(caller.value.file)
      modifies Objects(writers), pool, host`stdout, host`files
      ensures Valid() && pool.Valid() && writers == old(writers)
      ensures Snapshots(writers) ==
        Taken(writers, old(Snapshots(writers)), |writers|, level, Record(stamp, level, caller, msg), host.lastDate, host.unopenable)
      ensures host.stdout == WrittenStdout(old(host.stdout), writers, level, Record(stamp, level, caller, msg))
      ensures host.files == WrittenFiles(old(host.files), writers, old(Snapshots(writers)), level, host.lastDate, host.unopenable)
      ensures level < minLevel ==>
        && released == null && pool.free == old(pool.free)
        && host.stdout == old(host.stdout) && host.files == old(host.files)
        && forall i :: 0 <= i < |writers| ==> unchanged(writers[i].device.Obj())
      ensures level >= minLevel ==>
        && released != null && fresh(released) && released.data == ""
        && pool.free == (if old(pool.free) == [] then [""] else old(pool.free))
    {
      if level < minLevel {
        assert forall k :: 0 <= k < |writers| ==> level < writers[k].level;
        WrittenNone(host.stdout, host.files, writers, Snapshots(writers), level, Record(stamp, level, caller, msg),
                    host.lastDate, host.unopenable);
        return null;
      }
      released := Emit(level, msg, stamp, caller, pool, host);
    }

    /** Write past the early return: format once, dispatch, release the buffer. */
    method Emit(level: int, msg: string, stamp: string, caller: Option<Caller>,
                pool: BuffPool, host: Host) returns (released: Buffer)
      requires Valid() && pool.Valid()
      requires caller.Some? ==> HasSlash(caller.value.file)
      modifies Objects(writers), pool, host`stdout, host`files
      ensures Valid() && pool.Valid() && writers == old(writers) && minLevel == old(minLevel)
      ensures Snapshots(writers) ==
        Taken(writers, old(Snapshots(writers)), |writers|, level, Record(stamp, level, caller, msg), host.lastDate, host.unopenable)
      ensures host.stdout == WrittenStdout(old(host.stdout), writers, level, Record(stamp, level, caller, msg))
      ensures host.files == WrittenFiles(old(host.files), writers, old(Snapshots(writers)), level, host.lastDate, host.unopenable)
      ensures fresh(released) && released.data == ""
      ensures pool.free == (if old(pool.free) == [] then [""] else old(pool.free))
    {
      var buff := Render(level, msg, stamp, caller, pool);
      Deliver(level, buff, pool, host);
      GetThenPut(old(pool.free));
      released := buff;
    }

    /** The first step of Write: the record is laid out in a pooled buffer and no device is touched. */
    method Render(level: int, msg: string, stamp: string, caller: Option<Caller>, pool: BuffPool)
      returns (buff: Buffer)
      requires Valid() && pool.Valid()
      requires caller.Some? ==> HasSlash(caller.value.file)
      modifies pool
      ensures Valid() && pool.Valid() && fresh(buff) && buff.data == Record(stamp, level, caller, msg)
      ensures old(pool.free) == [] ==> pool.free == []
      ensures old(pool.free) != [] ==> pool.free == old(pool.free)[..|old(pool.free)| - 1]
      ensures Snapshots(writers) == old(Snapshots(writers))
    {
      SnapshotsAt(writers);
      buff := Format(level, msg, stamp, caller, pool);
      forall k | 0 <= k < |writers|
        ensures && unchanged(writers[k].device.Obj()) && writers[k].device.Valid()
                && writers[k].device.Snap() == old(writers[k].device.Snap())
      {
        assert writers[k].device.Obj() != pool;
      }
      assert OwnsDevices(writers);
      SnapshotsAt(writers);
    }

    /** The rest of Write: dispatch the buffer's bytes, then put the buffer back. */
    method Deliver(level: int, buff: Buffer, pool: BuffPool, host: Host)
      requires Valid() && pool.Valid() && pool !in Objects(writers)
      modifies Objects(writers), pool, buff, host`stdout, host`files
      ensures Valid() && pool.Valid() && writers == old(writers) && minLevel == old(minLevel)
      ensures Snapshots(writers) ==
        Taken(writers, old(Snapshots(writers)), |writers|, level, old(buff.data), host.lastDate, host.unopenable)
      ensures host.stdout == WrittenStdout(old(host.stdout), writers, level, old(buff.data))
      ensures host.files == WrittenFiles(old(host.files), writers, old(Snapshots(writers)), level, host.lastDate, host.unopenable)
      ensures buff.data == "" && pool.free == old(pool.free) + [""]
    {
      ghost var ws := writers;
      Dispatch(level, buff.data, host);
      Release(buff, pool);
    }

    /** The last step of Write: the buffer goes back to the pool and no device is touched. */
    method Release(buff: Buffer, pool: BuffPool)
      requires Valid() && pool.Valid()
      modifies pool, buff
      ensures Valid() && pool.Valid() && buff.data == "" && pool.free == old(pool.free) + [""]
      ensures Snapshots(writers) == old(Snapshots(writers))
    {
      SnapshotsAt(writers);
      pool.Put(buff);
      forall k | 0 <= k < |writers|
        ensures && unchanged(writers[k].device.Obj()) && writers[k].device.Valid()
                && writers[k].device.Snap() == old(writers[k].device.Snap())
      {
        assert writers[k].device.Obj() != buff && writers[k].device.Obj() != pool;
      }
      assert OwnsDevices(writers);
      SnapshotsAt(writers);
    }

    /** The loop of Write: each writer whose threshold the level meets takes the bytes. */
    method Dispatch(level: int, b: string, host: Host)
      requires Valid()
      modifies Objects(writers), host`stdout, host`files
      ensures Valid() && writers == old(writers)
      ensures Snapshots(writers) ==
        Taken(writers, old(Snapshots(writers)), |writers|, level, b, host.lastDate, host.unopenable)
      ensures host.stdout == WrittenStdout(old(host.stdout), writers, level, b)
      ensures host.files == WrittenFiles(old(host.files), writers, old(Snapshots(writers)), level, host.lastDate, host.unopenable)
    {
      assert this !in Objects(writers);
      DispatchAll(writers, level, b, host);
    }

    /**
     * Flush: every device drains its buffer, in list order, into standard
     * output or its file; nothing is received.
     */
    method Flush(host: Host)
      requires Valid()
      modifies Objects(writers), host`stdout, host`files
      ensures Valid()
      ensures Snapshots(writers) == Flushed(old(Snapshots(writers)), |writers|)
      ensures forall i :: 0 <= i < |writers| ==> writers[i].device.Pending() == ""
      ensures host.stdout == FlushedStdout(old(host.stdout), old(Snapshots(writers)))
      ensures host.files == FlushedFiles(old(host.files), old(Snapshots(writers)))
    {
      assert this !in Objects(writers);
      FlushAll(writers, host);
      SnapshotsAt(writers);
    }
  }

  /** Logger.Write's loop: the writers whose threshold the level meets take b, in list order. */
  method DispatchAll(ws: seq<Writer>, level: int, b: string, host: Host)
    requires Distinct(ws)
    requires forall k :: 0 <= k < |ws| ==> ws[k].device.Valid()
    modifies Objects(ws), host`stdout, host`files
    ensures forall k :: 0 <= k < |ws| ==> ws[k].device.Valid()
    ensures Snapshots(ws) == Taken(ws, old(Snapshots(ws)), |ws|, level, b, host.lastDate, host.unopenable)
    ensures host.stdout == WrittenStdout(old(host.stdout), ws, level, b)
    ensures host.files == WrittenFiles(old(host.files), ws, old(Snapshots(ws)), level, host.lastDate, host.unopenable)
  {
    ghost var ss := Snapshots(ws);
    var i := 0;
    while i < |ws|
      invariant 0 <= i <= |ws|
      invariant forall k :: 0 <= k < |ws| ==> ws[k].device.Valid()
      invariant Snapshots(ws) == Taken(ws, ss, i, level, b, host.lastDate, host.unopenable)
      invariant host.stdout == WrittenStdout(old(host.stdout), ws[..i], level, b)
      invariant host.files == WrittenFiles(old(host.files), ws[..i], ss[..i], level, host.lastDate, host.unopenable)
    {
      assert ws[..i + 1][..i] == ws[..i] && ss[..i + 1][..i] == ss[..i];
      ghost var before := Snapshots(ws);
      assert before[i] == ss[i];
      WriteAt(ws, i, level, b, host);
      assert Taken(ws, ss, i + 1, level, b, host.lastDate, host.unopenable) ==
             before[i := Take(ws[i], ss[i], level, b, host.lastDate, host.unopenable)];
      i := i + 1;
    }
    assert ws[..i] == ws && ss[..i] == ss;
  }

  /** Logger.Flush's loop: every device drains, in list order. */
  method FlushAll(ws: seq<Writer>, host: Host)
    requires Distinct(ws)
    requires forall k :: 0 <= k < |ws| ==> ws[k].device.Valid()
    modifies Objects(ws), host`stdout, host`files
    ensures forall k :: 0 <= k < |ws| ==> ws[k].device.Valid()
    ensures Snapshots(ws) == Flushed(old(Snapshots(ws)), |ws|)
    ensures forall k :: 0 <= k < |ws| ==> PendingOf(Snapshots(ws)[k].state) == ""
    ensures host.stdout == FlushedStdout(old(host.stdout), old(Snapshots(ws)))
    ensures host.files == FlushedFiles(old(host.files), old(Snapshots(ws)))
  {
    ghost var ss := Snapshots(ws);
    var i := 0;
    while i < |ws|
      invariant 0 <= i <= |ws|
      invariant forall k :: 0 <= k < |ws| ==> ws[k].device.Valid()
      invariant Snapshots(ws) == Flushed(ss, i)
      invariant forall k :: 0 <= k < i ==> PendingOf(Snapshots(ws)[k].state) == ""
      invariant host.stdout == FlushedStdout(old(host.stdout), ss[..i])
      invariant host.files == FlushedFiles(old(host.files), ss[..i])
    {
      assert ss[..i + 1][..i] == ss[..i];
      ghost var before := Snapshots(ws);
      assert before[i] == ss[i];
      FlushAt(ws, i, host);
      assert Flushed(ss, i + 1) == before[i := Snapshot(ss[i].received, StateOnFlush(ss[i].state))];
      i := i + 1;
    }
    assert ss[..i] == ss;
  }

  /**
   * One step of Logger.Write's loop: the i-th device takes p when the level
   * meets its threshold, and is untouched otherwise; the others are untouched.
   */
  method WriteAt(ws: seq<Writer>, i: nat, level: int, p: string, host: Host)
    requires i < |ws| && Distinct(ws)
    requires forall k :: 0 <= k < |ws| ==> ws[k].device.Valid()
    modifies ws[i].device.Obj(), host`stdout, host`files
    ensures forall k :: 0 <= k < |ws| ==> ws[k].device.Valid()
    ensures Snapshots(ws) ==
      old(Snapshots(ws))[i := Take(ws[i], old(Snapshots(ws))[i], level, p, host.lastDate, host.unopenable)]
    ensures host.stdout == if level >= ws[i].level then ws[i].device.StdoutOnWrite(old(host.stdout), p)
                           else old(host.stdout)
    ensures host.files == if level >= ws[i].level
                          then FilesOnWrite(ws[i].device.Desc(), old(Snapshots(ws))[i].state, old(host.files),
                                            host.lastDate, host.unopenable)
                          else old(host.files)
  {
    SnapshotsAt(ws);
    if level < ws[i].level {
      assert Snapshots(ws)[i := Snapshots(ws)[i]] == Snapshots(ws);
      return;
    }
    DeviceWrite(ws[i].device, p, host);
    forall k | 0 <= k < |ws| && k != i
      ensures ws[k].device.Valid() && ws[k].device.Snap() == old(ws[k].device.Snap())
    {
      DistinctApart(ws, k, i);
    }
    SnapshotsAt(ws);
  }

  /** One step of Logger.Flush: the i-th device drains; the others are untouched. */
  method FlushAt(ws: seq<Writer>, i: nat, host: Host)
    requires i < |ws| && Distinct(ws)
    requires forall k :: 0 <= k < |ws| ==> ws[k].device.Valid()
    modifies ws[i].device.Obj(), host`stdout, host`files
    ensures forall k :: 0 <= k < |ws| ==> ws[k].device.Valid()
    ensures Snapshots(ws) ==
      old(Snapshots(ws))[i := Snapshot(old(Snapshots(ws))[i].received, StateOnFlush(old(Snapshots(ws))[i].state))]
    ensures PendingOf(Snapshots(ws)[i].state) == ""
    ensures host.stdout == StdoutOnFlush(old(Snapshots(ws))[i].state, old(host.stdout))
    ensures host.files == FilesOnFlush(old(Snapshots(ws))[i].state, old(host.files))
  {
    SnapshotsAt(ws);
    DeviceFlush(ws[i].device, host);
    forall k | 0 <= k < |ws| && k != i
      ensures ws[k].device.Valid() && ws[k].device.Snap() == old(ws[k].device.Snap())
    {
      DistinctApart(ws, k, i);
    }
    SnapshotsAt(ws);
  }
}

=== FILE: registry.dfy ===
/**
 * log.go, the package-level loggerMap: Init merges logger definitions into
 * it, GetLogger looks a name up with a fallback to "default", and SetLevel
 * changes one writer's threshold.
 */
module Registry {
  import opened Wrappers
  import opened Text
  import opened Levels
  import opened Devices
  import opened Log

  /** One [[logger]] entry of the configuration. */
  datatype LoggerDefine = LoggerDefine(name: string, level: string, writer: string)

  /** What a writer is, seen from outside: its threshold and the kind of device it feeds. */
  datatype WriterDesc = WriterDesc(level: int, device: DeviceDesc)

  /** The writer a definition asks for; None when deviceMap has no constructor for its kind. */
  function DefineWriter(d: LoggerDefine): (r: Option<WriterDesc>)
    ensures r.None? <==> DescOf(Lower(d.writer)).None?
    ensures r.Some? ==> r.value == WriterDesc(LevelFromStr(d.level), DescOf(Lower(d.writer)).value)
  {
    match DescOf(Lower(d.writer))
    case None => None
    case Some(dd) => Some(WriterDesc(LevelFromStr(d.level), dd))
  }

  /**
   * Init lowercases the whole descriptor, so a file device's path prefix
   * reaches the device lowercased, whatever case the kind was written in.
   */
  lemma DefineLowersFilePath(name: string, level: string, path: string)
    ensures DefineWriter(LoggerDefine(name, level, "FILE:" + path)) ==
      Some(WriterDesc(LevelFromStr(level), FileDesc(Lower(path))))
    ensures DefineWriter(LoggerDefine(name, level, "file:" + path)) ==
      Some(WriterDesc(LevelFromStr(level), FileDesc(Lower(path))))
  {
    assert Lower("FILE:" + path) == "file:" + Lower(path);
    assert Lower("file:" + path) == "file:" + Lower(path);
    FileWithArgs(Lower(path));
  }

  /** Every definition names a device kind that exists. */
  predicate AllKnown(cs: seq<LoggerDefine>)
  {
    forall k :: 0 <= k < |cs| ==> DefineWriter(cs[k]).Some?
  }

  /** How many definitions Init gets through: it stops at the first unknown device kind. */
  function KnownPrefix(cs: seq<LoggerDefine>): (k: nat)
    ensures k <= |cs|
    ensures forall j :: 0 <= j < k ==> DefineWriter(cs[j]).Some?
    ensures k < |cs| ==> DefineWriter(cs[k]).None?
  {
    if cs == [] then 0
    else if DefineWriter(cs[0]).None? then 0
    else
      var k := KnownPrefix(cs[1..]);
      KnownShift(cs, k);
      k + 1
  }

  /** Known definitions after the first stay known one place further on. */
  lemma KnownShift(cs: seq<LoggerDefine>, k: nat)
    requires cs != [] && k <= |cs| - 1
    requires forall j :: 0 <= j < k ==> DefineWriter(cs[1..][j]).Some?
    ensures forall j :: 1 <= j < k + 1 ==> DefineWriter(cs[j]).Some?
  {
    forall j | 1 <= j < k + 1
      ensures DefineWriter(cs[j]).Some?
    {
      assert cs[j] == cs[1..][j - 1];
    }
  }

  /** The registry as a map from name to writer descriptions. */
  type View = map<string, seq<WriterDesc>>

  /** The writers registered under n, none when n is absent. */
  function Get(v: View, n: string): seq<WriterDesc>
  {
    if n in v then v[n] else []
  }

  /** One definition: its writer joins the lowercased name, which is created if new. */
  function Apply(v: View, d: LoggerDefine): (r: View)
    requires DefineWriter(d).Some?
    ensures r.Keys == v.Keys + {Lower(d.name)}
    ensures r[Lower(d.name)] == Get(v, Lower(d.name)) + [DefineWriter(d).value]
    ensures forall n :: n in v && n != Lower(d.name) ==> r[n] == v[n]
  {
    var n := Lower(d.name);
    v[n := Get(v, n) + [DefineWriter(d).value]]
  }

  /** The definitions applied in order. */
  function Merge(v: View, cs: seq<LoggerDefine>): (r: View)
    requires AllKnown(cs)
    ensures forall n :: n in v ==> n in r
  {
    if cs == [] then v
    else Apply(Merge(v, cs[..|cs| - 1]), cs[|cs| - 1])
  }

  /** The writers the definitions add to name n, in definition order. */
  function WritersFor(cs: seq<LoggerDefine>, n: string): seq<WriterDesc>
    requires AllKnown(cs)
  {
    if cs == [] then []
    else
      var d := cs[|cs| - 1];
      WritersFor(cs[..|cs| - 1], n) + (if Lower(d.name) == n then [DefineWriter(d).value] else [])
  }

  /** Some definition names n, after lowercasing. */
  predicate Named(cs: seq<LoggerDefine>, n: string)
  {
    exists k :: 0 <= k < |cs| && Lower(cs[k].name) == n
  }

  /** Named, one definition at a time from the right. */
  lemma NamedSnoc(cs: seq<LoggerDefine>, n: string)
    requires cs != []
    ensures Named(cs, n) <==> Named(cs[..|cs| - 1], n) || Lower(cs[|cs| - 1].name) == n
  {
    var cs' := cs[..|cs| - 1];
    if Named(cs', n) {
      var k :| 0 <= k < |cs'| && Lower(cs'[k].name) == n;
      assert cs[k] == cs'[k];
    }
    if Named(cs, n) {
      var k :| 0 <= k < |cs| && Lower(cs[k].name) == n;
      if k < |cs'| {
        assert cs'[k] == cs[k];
      }
    }
  }

  /**
   * Init's merge, entry by entry: the lowercased names of the definitions
   * join the registry, and each name keeps the writers it had followed by
   * one writer per definition naming it, in definition order.
   */
  lemma MergeEntry(v: View, cs: seq<LoggerDefine>, n: string)
    requires AllKnown(cs)
    ensures n in Merge(v, cs) <==> n in v || Named(cs, n)
    ensures n in Merge(v, cs) ==> Merge(v, cs)[n] == Get(v, n) + WritersFor(cs, n)
  {
    MergeKeys(v, cs, n);
    MergeGet(v, cs, n);
  }

  /** The names Init's merge files: the old ones and the lowercased names of the definitions. */
  lemma {:induction false} MergeKeys(v: View, cs: seq<LoggerDefine>, n: string)
    requires AllKnown(cs)
    ensures n in Merge(v, cs) <==> n in v || Named(cs, n)
  {
    if cs != [] {
      KnownFront(cs);
      MergeKeys(v, cs[..|cs| - 1], n);
      NamedSnoc(cs, n);
    }
  }

  /** The writers Init's merge files under n: the old ones, then one per definition naming n. */
  lemma {:induction false} MergeGet(v: View, cs: seq<LoggerDefine>, n: string)
    requires AllKnown(cs)
    ensures Get(Merge(v, cs), n) == Get(v, n) + WritersFor(cs, n)
  {
    if cs != [] {
      var cs', d := cs[..|cs| - 1], cs[|cs| - 1];
      KnownFront(cs);
      var e := if Lower(d.name) == n then [DefineWriter(d).value] else [];
      MergeGet(v, cs', n);
      GetApply(Merge(v, cs'), d, n);
      assert WritersFor(cs, n) == WritersFor(cs', n) + e;
      ConcatAssoc(Get(v, n), WritersFor(cs', n), e);
    }
  }

  /** Appending writers in two steps or in one gives the same list. */
  lemma ConcatAssoc<T>(a: seq<T>, b: seq<T>, c: seq<T>)
    ensures a + b + c == a + (b + c)
  {
  }

  /** One definition, seen from one name: it gains the writer when the name is the definition's. */
  lemma GetApply(m: View, d: LoggerDefine, n: string)
    requires DefineWriter(d).Some?
    ensures Get(Apply(m, d), n) == Get(m, n) + (if Lower(d.name) == n then [DefineWriter(d).value] else [])
  {
  }

  /** Dropping the last definition keeps the rest known. */
  lemma KnownFront(cs: seq<LoggerDefine>)
    requires cs != [] && AllKnown(cs)
    ensures AllKnown(cs[..|cs| - 1])
  {
    assert forall j :: 0 <= j < |cs| - 1 ==> cs[..|cs| - 1][j] == cs[j];
  }

  /** Loggers no definition names keep their writers. */
  lemma MergeUntouched(v: View, cs: seq<LoggerDefine>, n: string)
    requires AllKnown(cs) && !Named(cs, n)
    ensures n in Merge(v, cs) <==> n in v
    ensures n in v ==> Merge(v, cs)[n] == v[n]
  {
    MergeEntry(v, cs, n);
    WritersForUnnamed(cs, n);
  }

  /** A name no definition carries gains no writers, and at most one per definition otherwise. */
  lemma {:induction false} WritersForUnnamed(cs: seq<LoggerDefine>, n: string)
    requires AllKnown(cs)
    ensures |WritersFor(cs, n)| <= |cs|
    ensures !Named(cs, n) ==> WritersFor(cs, n) == []
  {
    if cs != [] {
      KnownFront(cs);
      WritersForUnnamed(cs[..|cs| - 1], n);
      NamedSnoc(cs, n);
    }
  }

  /** Init's last step: a "default" console logger at DEBUG, unless one exists. */
  function WithDefault(v: View): (r: View)
    ensures "default" in r
    ensures "default" in v ==> r == v
    ensures forall n :: n != "default" ==> (n in r <==> n in v) && (n in v ==> r[n] == v[n])
  {
    if "default" in v then v else v["default" := [WriterDesc(DEBUG, ConsoleDesc)]]
  }

  /** The fallback added when "default" is missing is a console device taking everything. */
  lemma DefaultIsConsoleAtDebug(v: View)
    requires "default" !in v
    ensures WithDefault(v)["default"] == [WriterDesc(DEBUG, ConsoleDesc)]
  {
  }

  /** A logger's writers, as descriptions. */
  function Descs(ws: seq<Writer>): (r: seq<WriterDesc>)
    ensures |r| == |ws|
    ensures forall i :: 0 <= i < |ws| ==> r[i] == WriterDesc(ws[i].level, ws[i].device.Desc())
  {
    if ws == [] then []
    else Descs(ws[..|ws| - 1]) + [WriterDesc(ws[|ws| - 1].level, ws[|ws| - 1].device.Desc())]
  }

  /** SetLevel's results: nil, its two errors, and the index panic below -1. */
  datatype SetLevelResult = Success | ErrNameNotFound | ErrIndexOutOfBound | IndexPanic

  /** Appending a writer appends its description. */
  lemma DescsSnoc(ws: seq<Writer>, w: Writer)
    ensures Descs(ws + [w]) == Descs(ws) + [WriterDesc(w.level, w.device.Desc())]
  {
    assert (ws + [w])[..|ws|] == ws;
  }

  /** Changing one writer's threshold changes that one description. */
  lemma DescsUpdate(ws: seq<Writer>, i: nat, level: int)
    requires i < |ws|
    ensures Descs(ws[i := Writer(level, ws[i].device)]) ==
      Descs(ws)[i := WriterDesc(level, ws[i].device.Desc())]
  {
  }

  /** The registry seen through descriptions. */
  function Describe(m: map<string, seq<Writer>>): (v: View)
    ensures v.Keys == m.Keys
    ensures forall n :: n in m ==> v[n] == Descs(m[n])
  {
    map n | n in m :: Descs(m[n])
  }

  /** Filing a writer list under a name files its descriptions there. */
  lemma DescribeSet(m: map<string, seq<Writer>>, n: string, ws: seq<Writer>)
    ensures Describe(m[n := ws]) == Describe(m)[n := Descs(ws)]
  {
  }

  /** Define's step on the writer lists, seen through descriptions, is Apply. */
  lemma ApplyDescribed(m: map<string, seq<Writer>>, d: LoggerDefine, w: Writer)
    requires DefineWriter(d) == Some(WriterDesc(w.level, w.device.Desc()))
    ensures var n := Lower(d.name);
      Describe(m[n := (if n in m then m[n] else []) + [w]]) == Apply(Describe(m), d)
  {
    var n := Lower(d.name);
    var ws := if n in m then m[n] else [];
    DescsSnoc(ws, w);
    DescribeSet(m, n, ws + [w]);
  }

  /** AddDefault's step on the writer lists, seen through descriptions, is WithDefault. */
  lemma DefaultDescribed(m: map<string, seq<Writer>>, w: Writer)
    requires "default" !in m && w.level == DEBUG && w.device.Desc() == ConsoleDesc
    ensures Describe(m["default" := [w]]) == WithDefault(Describe(m))
  {
    assert Descs([w]) == [WriterDesc(DEBUG, ConsoleDesc)];
    DescribeSet(m, "default", [w]);
    assert "default" !in Describe(m);
  }

  /** Every name in before is still there, and its writer list has only grown. */
  predicate Grown(before: map<string, seq<Writer>>, after: map<string, seq<Writer>>)
  {
    forall n :: n in before ==> n in after && before[n] <= after[n]
  }

  /** Growth composes. */
  lemma GrownTrans(a: map<string, seq<Writer>>, b: map<string, seq<Writer>>, c: map<string, seq<Writer>>)
    requires Grown(a, b) && Grown(b, c)
    ensures Grown(a, c)
  {
  }

  /** Every name in before still holds the same logger. */
  predicate Kept(before: map<string, Logger>, after: map<string, Logger>)
  {
    forall n :: n in before ==> n in after && after[n] == before[n]
  }

  /** Keeping the loggers composes. */
  lemma KeptTrans(a: map<string, Logger>, b: map<string, Logger>, c: map<string, Logger>)
    requires Kept(a, b) && Kept(b, c)
    ensures Kept(a, c)
  {
  }

  /** Position k of name n in `after` lies past the writer list `before` had for n. */
  predicate Beyond(before: map<string, seq<Writer>>, after: map<string, seq<Writer>>, n: string, k: int)
  {
    n in after && 0 <= k < |after[n]| && (n in before ==> |before[n]| <= k)
  }

  /**
   * Across two steps that each keep every writer list as a prefix, a
   * position past the first map is past the middle one, or was already
   * there, holding the same writer.
   */
  lemma BeyondSplit(a: map<string, seq<Writer>>, b: map<string, seq<Writer>>, c: map<string, seq<Writer>>,
                    n: string, k: int)
    requires Grown(a, b) && Grown(b, c)
    requires Beyond(a, c, n, k)
    ensures Beyond(b, c, n, k) || (Beyond(a, b, n, k) && c[n][k] == b[n][k])
  {
  }

  /**
   * Filing one more writer under a name keeps every earlier list as a
   * prefix, and that writer is the only one past the earlier lists.
   */
  lemma Grows(m: map<string, seq<Writer>>, m': map<string, seq<Writer>>, name: string, w: Writer)
    requires name in m ==> m' == m[name := m[name] + [w]]
    requires name !in m ==> m' == m[name := [w]]
    ensures Grown(m, m')
    ensures forall n, k :: Beyond(m, m', n, k) ==> m'[n][k] == w
  {
  }

  /** An object no writer's device is lies outside their Objects. */
  lemma {:induction false} NotAmong(ws: seq<Writer>, o: object)
    requires forall k :: 0 <= k < |ws| ==> ws[k].device.Obj() != o
    ensures o !in Objects(ws)
  {
    if ws != [] {
      NotAmong(ws[..|ws| - 1], o);
    }
  }

  /** Every ASCII letter of s is lower case. */
  predicate IsLower(s: string)
  {
    forall i :: 0 <= i < |s| ==> !('A' <= s[i] <= 'Z')
  }

  /** The fallback logger's name is already lower case. */
  lemma DefaultIsLower()
    ensures IsLower("default")
  {
  }

  /** Lower produces exactly the strings it leaves alone. */
  lemma IsLowerFixed(s: string)
    ensures IsLower(Lower(s))
    ensures IsLower(s) <==> Lower(s) == s
  {
    if Lower(s) == s {
      forall i | 0 <= i < |s| ensures !('A' <= s[i] <= 'Z') {
        assert s[i] == LowerChar(s[i]);
      }
    }
  }

  /** A device object is neither a registry nor one of its loggers. */
  lemma NotRegistryObject(x: Device, r: Loggers, ls: set<Logger>)
    ensures x.Obj() != r && x.Obj() !in ls
  {
  }

  /** loggerMap. */
  class Loggers {
    var loggers: map<string, Logger>
    /** The writer list of every registered logger. */
    ghost var writers: map<string, seq<Writer>>
    /** The name each registered logger is filed under. */
    ghost var names: map<Logger, string>

    /** The device objects of every registered logger. */
    ghost function Repr(): set<object>
      reads this, loggers.Values
    {
      set n, o | n in loggers && o in Objects(loggers[n].writers) :: o
    }

    /**
     * Every logger is consistent and its writers are the ones on file, no
     * two names share a logger, and every name is lower case.
     */
    ghost predicate Valid()
      reads this, loggers.Values, Repr()
    {
      && loggers.Keys == writers.Keys
      && (forall n :: n in loggers ==> loggers[n].Valid() && loggers[n].writers == writers[n])
      && (forall n :: n in loggers ==> loggers[n] in names && names[loggers[n]] == n)
      && (forall n :: n in loggers ==> IsLower(n))
    }

    /** Valid, except that the writers on file for name may lag behind its logger. */
    ghost predicate StaleAt(name: string)
      reads this, loggers.Values, Repr()
    {
      && name in loggers
      && loggers.Keys == writers.Keys
      && (forall n :: n in loggers ==> loggers[n].Valid() && (n != name ==> loggers[n].writers == writers[n]))
      && (forall n :: n in loggers ==> loggers[n] in names && names[loggers[n]] == n)
      && (forall n :: n in loggers ==> IsLower(n))
    }

    /** The registry as descriptions. */
    ghost function View(): View
      reads this
    {
      Describe(writers)
    }

    /** Package initialisation: an empty map, then Init(nil). */
    constructor()
      ensures Valid()
      ensures View() == map["default" := [WriterDesc(DEBUG, ConsoleDesc)]]
      ensures "default" in loggers
      ensures forall n, k :: n in writers && 0 <= k < |writers[n]| ==>
        fresh(writers[n][k].device.Obj()) && writers[n][k].device.Pristine()
    {
      loggers := map[];
      writers := map[];
      names := map[];
      new;
      assert View() == map[];
      ghost var none := writers;
      var completed := Init([]);
      assert Merge(map[], []) == map[];
      forall n, k | n in writers && 0 <= k < |writers[n]|
        ensures fresh(writers[n][k].device.Obj()) && writers[n][k].device.Pristine()
      {
        assert Beyond(none, writers, n, k);
      }
    }

    /**
     * GetLogger: the logger registered under exactly this name, else the
     * "default" one, else nil. The name is not lowercased.
     */
    function GetLogger(name: string): (r: Logger?)
      reads this
      ensures name in loggers ==> r == loggers[name]
      ensures name !in loggers && "default" in loggers ==> r == loggers["default"]
      ensures r == null <==> name !in loggers && "default" !in loggers
    {
      if name in loggers then loggers[name]
      else if "default" in loggers then loggers["default"]
      else null
    }

    /**
     * Once "default" is registered, which package initialisation ensures and
     * Init and SetLevel keep, GetLogger never returns nil: an unregistered
     * name gets the default logger.
     */
    lemma GetLoggerTotal(name: string)
      requires "default" in loggers
      ensures GetLogger(name) != null
      ensures name !in loggers ==> GetLogger(name) == loggers["default"]
    {
    }

    /** Init: merge the definitions in order, then make sure "default" exists. */
    method Init(config: seq<LoggerDefine>) returns (completed: bool)
      requires Valid()
      modifies this, loggers.Values
      ensures Valid()
      ensures completed <==> AllKnown(config)
      ensures completed ==> View() == WithDefault(Merge(old(View()), config))
      ensures !completed ==> View() == Merge(old(View()), config[..KnownPrefix(config)])
      ensures completed || "default" in old(loggers) ==> "default" in loggers
      ensures Kept(old(loggers), loggers)
      ensures Grown(old(writers), writers)
      ensures forall l :: l in loggers.Values ==> l in old(loggers.Values) || fresh(l)
      ensures forall n, k :: Beyond(old(writers), writers, n, k) ==>
        fresh(writers[n][k].device.Obj()) && writers[n][k].device.Pristine()
    {
      completed := DefineAll(config);
      if completed {
        ghost var mid := writers;
        ghost var held := loggers;
        label defined:
        AddDefault();
        GrownTrans(old(writers), mid, writers);
        KeptTrans(old(loggers), held, loggers);
        forall n, k | Beyond(old(writers), writers, n, k) && !Beyond(mid, writers, n, k)
          ensures fresh(writers[n][k].device.Obj()) && writers[n][k].device.Pristine()
        {
          BeyondSplit(old(writers), mid, writers, n, k);
          var x := mid[n][k].device;
          assert old@defined(allocated(x)) && old@defined(allocated(x.Obj()));
          NotRegistryObject(x, this, {});
        }
      }
    }

    /** Init's loop: define each entry in turn, stopping at the first unknown device kind. */
    method DefineAll(config: seq<LoggerDefine>) returns (ok: bool)
      requires Valid()
      modifies this, loggers.Values
      ensures Valid()
      ensures ok <==> AllKnown(config)
      ensures ok ==> View() == Merge(old(View()), config)
      ensures !ok ==> View() == Merge(old(View()), config[..KnownPrefix(config)])
      ensures Kept(old(loggers), loggers)
      ensures Grown(old(writers), writers)
      ensures forall l :: l in loggers.Values ==> l in old(loggers.Values) || fresh(l)
      ensures forall n, k :: Beyond(old(writers), writers, n, k) ==>
        fresh(writers[n][k].device.Obj()) && writers[n][k].device.Pristine()
    {
      var i := 0;
      while i < |config|
        invariant 0 <= i <= |config| && AllKnown(config[..i])
        invariant Valid()
        invariant View() == Merge(old(View()), config[..i])
        invariant Kept(old(loggers), loggers)
        invariant Grown(old(writers), writers)
        invariant forall l :: l in loggers.Values ==> l in old(loggers.Values) || fresh(l)
        invariant forall n, k :: Beyond(old(writers), writers, n, k) ==>
          fresh(writers[n][k].device.Obj()) && writers[n][k].device.Pristine()
      {
        ghost var before := writers;
        ghost var held := loggers;
        ok := DefineNext(config, i, old(View()), old(writers));
        GrownTrans(old(writers), before, writers);
        KeptTrans(old(loggers), held, loggers);
        forall n, k | Beyond(old(writers), writers, n, k)
          ensures fresh(writers[n][k].device.Obj()) && writers[n][k].device.Pristine()
        {
          if !Beyond(before, writers, n, k) {
            BeyondSplit(old(writers), before, writers, n, k);
          }
        }
        if !ok {
          return;
        }
        i := i + 1;
      }
      assert config[..i] == config;
      ok := true;
    }

    /**
     * The i-th pass of Init's loop, continuing the merge of config[..i] into
     * base. The devices of the writers added since start stay pristine.
     */
    method DefineNext(config: seq<LoggerDefine>, i: nat, ghost base: View, ghost start: map<string, seq<Writer>>)
      returns (ok: bool)
      requires i < |config| && AllKnown(config[..i])
      requires Valid() && View() == Merge(base, config[..i])
      requires Grown(start, writers)
      requires forall n, k :: Beyond(start, writers, n, k) ==> writers[n][k].device.Pristine()
      modifies this, loggers.Values
      ensures Valid()
      ensures ok ==> AllKnown(config[..i + 1]) && View() == Merge(base, config[..i + 1])
      ensures !ok ==> KnownPrefix(config) == i && View() == Merge(base, config[..i])
      ensures Kept(old(loggers), loggers)
      ensures Grown(old(writers), writers)
      ensures forall l :: l in loggers.Values ==> l in old(loggers.Values) || fresh(l)
      ensures forall n, k :: Beyond(old(writers), writers, n, k) ==>
        fresh(writers[n][k].device.Obj()) && writers[n][k].device.Pristine()
      ensures forall n, k :: Beyond(start, writers, n, k) ==> writers[n][k].device.Pristine()
    {
      ok := Define(config[i]);
      if ok {
        KnownStep(config, i);
        MergeStep(base, config, i);
      } else {
        KnownPrefixAt(config, i);
      }
      forall n, k | Beyond(start, writers, n, k) && !Beyond(old(writers), writers, n, k)
        ensures writers[n][k].device.Pristine()
      {
        BeyondSplit(start, old(writers), writers, n, k);
        var x := old(writers)[n][k].device;
        assert old(allocated(x)) && old(allocated(x.Obj()));
        NotRegistryObject(x, this, old(loggers.Values));
      }
    }

    /**
     * One pass of Init's loop: append the writer, or register a new logger
     * holding it. A writer it adds has a fresh, pristine device.
     */
    method Define(d: LoggerDefine) returns (ok: bool)
      requires Valid()
      modifies this, loggers.Values
      ensures Valid()
      ensures ok <==> DefineWriter(d).Some?
      ensures ok ==> View() == Apply(old(View()), d)
      ensures !ok ==> writers == old(writers)
      ensures Kept(old(loggers), loggers)
      ensures Grown(old(writers), writers)
      ensures forall l :: l in loggers.Values ==> l in old(loggers.Values) || fresh(l)
      ensures forall n, k :: Beyond(old(writers), writers, n, k) ==>
        fresh(writers[n][k].device.Obj()) && writers[n][k].device.Pristine()
    {
      var name := Lower(d.name);
      var define := Lower(d.writer);
      IsLowerFixed(d.name);
      var w: Option<Writer>;
      if name !in loggers {
        w := Register(name, LevelFromStr(d.level), define);
      } else {
        w := Extend(name, LevelFromStr(d.level), define);
      }
      ok := w.Some?;
      if ok {
        ApplyDescribed(old(writers), d, w.value);
        Grows(old(writers), writers, name, w.value);
      } else {
        assert writers == old(writers);
      }
    }

    /**
     * The new-name branch of Init, and its "default" fallback: build the
     * writer, then file a new logger holding just it.
     */
    method Register(name: string, level: int, define: string) returns (w: Option<Writer>)
      requires Valid() && name !in loggers && IsLower(name)
      modifies this
      ensures Valid()
      ensures w.None? <==> DescOf(define).None?
      ensures w.None? ==> loggers == old(loggers) && writers == old(writers)
      ensures w.Some? ==> && w.value.level == level && w.value.device.Desc() == DescOf(define).value
                          && writers == old(writers)[name := [w.value]]
                          && loggers.Keys == old(loggers).Keys + {name} && fresh(loggers[name])
                          && fresh(w.value.device.Obj()) && w.value.device.Pristine()
      ensures forall n :: n in old(loggers) ==> loggers[n] == old(loggers[n])
      ensures forall l :: l in loggers.Values ==> l in old(loggers.Values) || fresh(l)
    {
      var device := NewDevice(define);
      if device.None? {
        return None;
      }
      w := Some(Writer(level, device.value));
      label built:
      Install(name, w.value);
      assert unchanged@built(w.value.device.Obj());
    }

    /** NewLogger under a new name. */
    method Install(name: string, w: Writer)
      requires Valid() && name !in loggers && IsLower(name) && w.device.Valid()
      modifies this
      ensures Valid()
      ensures writers == old(writers)[name := [w]]
      ensures loggers.Keys == old(loggers).Keys + {name} && fresh(loggers[name])
      ensures forall n :: n in old(loggers) ==> loggers[n] == old(loggers[n])
    {
      var l := new Logger([w]);
      File(name, l);
    }

    /** loggerMap[name] = l, for a logger no name holds yet. */
    method File(name: string, l: Logger)
      requires Valid() && name !in loggers && IsLower(name) && l.Valid() && l !in names
      modifies this
      ensures Valid()
      ensures loggers == old(loggers)[name := l] && writers == old(writers)[name := l.writers]
    {
      loggers := loggers[name := l];
      writers := writers[name := l.writers];
      names := names[l := name];
      forall n | n in loggers && n != name
        ensures loggers[n].Valid()
      {
        assert loggers[n] == old(loggers[n]);
      }
    }

    /** The existing-name branch of Init: build the writer and append it to that logger. */
    method Extend(name: string, level: int, define: string) returns (w: Option<Writer>)
      requires Valid() && name in loggers
      modifies loggers[name], this
      ensures Valid() && loggers == old(loggers)
      ensures w.None? <==> DescOf(define).None?
      ensures w.None? ==> writers == old(writers)
      ensures w.Some? ==> && w.value.level == level && w.value.device.Desc() == DescOf(define).value
                          && writers == old(writers)[name := old(writers)[name] + [w.value]]
                          && fresh(w.value.device.Obj()) && w.value.device.Pristine()
    {
      var device := NewDevice(define);
      if device.None? {
        return None;
      }
      w := Some(Writer(level, device.value));
      ghost var ws := loggers[name].writers;
      forall k | 0 <= k < |ws| ensures ws[k].device.Obj() != device.value.Obj() {
        assert old(allocated(ws[k]));
        assert old(allocated(ws[k].device.Obj()));
      }
      NotAmong(ws, device.value.Obj());
      label built:
      Attach(name, w.value);
      assert unchanged@built(w.value.device.Obj());
    }

    /** log.writers = append(log.writers, w), then UpdateLevel. */
    method Attach(name: string, w: Writer)
      requires Valid() && name in loggers && w.device.Valid()
      requires w.device.Obj() !in Objects(loggers[name].writers)
      modifies this, loggers[name]
      ensures Valid() && loggers == old(loggers)
      ensures writers == old(writers)[name := old(writers)[name] + [w]]
    {
      var l := loggers[name];
      l.AddWriter(w);
      forall n | n in loggers && n != name
        ensures loggers[n].writers == writers[n] && loggers[n].Valid()
      {
        assert loggers[n] != l;
        assert unchanged(loggers[n]);
      }
      Sync(name);
    }

    /** Brings the writers on file for name up to date with its logger. */
    method Sync(name: string)
      requires StaleAt(name)
      modifies this
      ensures Valid() && loggers == old(loggers)
      ensures writers == old(writers)[name := loggers[name].writers]
    {
      writers := writers[name := loggers[name].writers];
    }

    /** The tail of Init: a console logger at DEBUG under "default" when none is registered. */
    method AddDefault()
      requires Valid()
      modifies this
      ensures Valid()
      ensures View() == WithDefault(old(View()))
      ensures "default" in loggers
      ensures Kept(old(loggers), loggers)
      ensures Grown(old(writers), writers)
      ensures forall l :: l in loggers.Values ==> l in old(loggers.Values) || fresh(l)
      ensures forall n, k :: Beyond(old(writers), writers, n, k) ==>
        fresh(writers[n][k].device.Obj()) && writers[n][k].device.Pristine()
    {
      if "default" !in loggers {
        AddConsoleDefault();
      }
    }

    /** The branch of Init's tail that runs when "default" is missing: register it as a console logger at DEBUG. */
    method AddConsoleDefault()
      requires Valid() && "default" !in loggers
      modifies this
      ensures Valid()
      ensures View() == WithDefault(old(View()))
      ensures "default" in loggers
      ensures Kept(old(loggers), loggers)
      ensures Grown(old(writers), writers)
      ensures forall l :: l in loggers.Values ==> l in old(loggers.Values) || fresh(l)
      ensures forall n, k :: Beyond(old(writers), writers, n, k) ==>
        fresh(writers[n][k].device.Obj()) && writers[n][k].device.Pristine()
    {
      DescOfBare();
      DefaultIsLower();
      var w := Register("default", DEBUG, "console");
      DefaultDescribed(old(writers), w.value);
      Grows(old(writers), writers, "default", w.value);
      forall n, k | Beyond(old(writers), writers, n, k)
        ensures fresh(writers[n][k].device.Obj()) && writers[n][k].device.Pristine()
      {
        assert writers[n][k] == w.value;
      }
    }

    /**
     * SetLevel: an unknown name and an index past the end are reported and
     * change nothing; -1 assigns to copies of the writers, so it changes no
     * threshold; an index below -1 panics; any other index sets that one
     * writer's threshold. minLevel is recomputed on success.
     */
    method SetLevel(name: string, index: int, level: string) returns (res: SetLevelResult)
      requires Valid()
      modifies this, if name in loggers then {loggers[name]} else {}
      ensures Valid() && loggers == old(loggers)
      ensures res == ErrNameNotFound <==> name !in loggers
      ensures name !in loggers ==> View() == old(View())
      ensures name in loggers ==>
        var l := loggers[name];
        && (res == ErrIndexOutOfBound <==> index >= |old(l.writers)|)
        && (res == IndexPanic <==> index < -1)
        && (res != Success || index == -1 ==>
              l.writers == old(l.writers) && l.minLevel == old(l.minLevel) && View() == old(View()))
        && (res == Success && index >= 0 ==>
              && l.writers == old(l.writers)[index := Writer(LevelFromStr(level), old(l.writers)[index].device)]
              && View() == old(View())[name := old(View())[name][index := WriterDesc(LevelFromStr(level), old(View())[name][index].device)]])
    {
      if name !in loggers {
        return ErrNameNotFound;
      }
      var l := loggers[name];
      if index >= |l.writers| {
        return ErrIndexOutOfBound;
      }
      var newlevel := LevelFromStr(level);
      if index == -1 {
        for k := 0 to |l.writers| {
          var writer := l.writers[k];
          writer := writer.(level := newlevel);
        }
        Recompute(name);
      } else if index < -1 {
        return IndexPanic;
      } else {
        SetAt(name, index, newlevel);
      }
      return Success;
    }

    /** UpdateLevel on the logger filed under name: the cached minimum is already right, so nothing changes. */
    method Recompute(name: string)
      requires Valid() && name in loggers
      modifies loggers[name]
      ensures Valid() && unchanged(this)
      ensures loggers[name].writers == old(loggers[name].writers)
      ensures loggers[name].minLevel == old(loggers[name].minLevel)
    {
      var l := loggers[name];
      l.UpdateLevel();
      forall n | n in loggers && n != name
        ensures loggers[n].Valid()
      {
        assert loggers[n] != l;
      }
    }

    /** SetLevel on a valid index: that writer of that logger takes the new threshold. */
    method SetAt(name: string, index: nat, level: int)
      requires Valid() && name in loggers && index < |loggers[name].writers|
      modifies this, loggers[name]
      ensures Valid() && loggers == old(loggers)
      ensures loggers[name].writers == writers[name]
      ensures writers == old(writers)[name := old(writers)[name][index := Writer(level, old(writers)[name][index].device)]]
      ensures View() == old(View())[name := old(View())[name][index := WriterDesc(level, old(View())[name][index].device)]]
    {
      ghost var ws := writers[name];
      DescsUpdate(ws, index, level);
      DescribeSet(writers, name, ws[index := Writer(level, ws[index].device)]);
      var l := loggers[name];
      l.SetWriterLevel(index, level);
      forall n | n in loggers && n != name
        ensures loggers[n].writers == writers[n] && loggers[n].Valid()
      {
        assert loggers[n] != l;
        assert unchanged(loggers[n]);
      }
      Sync(name);
    }
  }

  /** One more known definition extends the known prefix. */
  lemma KnownStep(cs: seq<LoggerDefine>, i: nat)
    requires i < |cs| && AllKnown(cs[..i]) && DefineWriter(cs[i]).Some?
    ensures AllKnown(cs[..i + 1])
  {
    var p := cs[..i + 1];
    forall j | 0 <= j < |p|
      ensures DefineWriter(p[j]).Some?
    {
      if j < i {
        assert p[j] == cs[..i][j];
      }
    }
  }

  /** One more pass of Init's loop extends the merge by that definition. */
  lemma MergeStep(v: View, cs: seq<LoggerDefine>, i: nat)
    requires i < |cs| && AllKnown(cs[..i]) && AllKnown(cs[..i + 1]) && DefineWriter(cs[i]).Some?
    ensures Merge(v, cs[..i + 1]) == Apply(Merge(v, cs[..i]), cs[i])
  {
    assert cs[..i + 1][..i] == cs[..i];
  }

  /** Init stops exactly where KnownPrefix says. */
  lemma KnownPrefixAt(cs: seq<LoggerDefine>, i: nat)
    requires i < |cs| && AllKnown(cs[..i]) && DefineWriter(cs[i]).None?
    ensures KnownPrefix(cs) == i
  {
    forall j | 0 <= j < i
      ensures DefineWriter(cs[j]).Some?
    {
      assert cs[..i][j] == cs[j];
    }
  }
}

=== FILE: text.dfy ===
/**
 * Text helpers shared by the model: ASCII case mapping (Go's strings.ToLower
 * restricted to ASCII), decimal rendering (strconv / %v of an integer) and
 * the first occurrence of a character.
 */
module Text {
  import opened Wrappers

  function LowerChar(c: char): char
  {
    if 'A' <= c <= 'Z' then (c as int + 32) as char else c
  }

  function UpperChar(c: char): char
  {
    if 'a' <= c <= 'z' then (c as int - 32) as char else c
  }

  /** Lower-cases every ASCII letter of s. */
  function Lower(s: string): (r: string)
    ensures |r| == |s|
    ensures forall i :: 0 <= i < |s| ==> r[i] == LowerChar(s[i])
  {
    seq(|s|, i requires 0 <= i < |s| => LowerChar(s[i]))
  }

  /** Upper-cases every ASCII letter of s. */
  function Upper(s: string): (r: string)
    ensures |r| == |s|
    ensures forall i :: 0 <= i < |s| ==> r[i] == UpperChar(s[i])
  {
    seq(|s|, i requires 0 <= i < |s| => UpperChar(s[i]))
  }

  lemma LowerIdempotent(s: string)
    ensures Lower(Lower(s)) == Lower(s)
  {
  }

  /** Case differences vanish once a string is lower-cased. */
  lemma LowerOfUpper(s: string)
    ensures Lower(Upper(s)) == Lower(s)
  {
    forall i | 0 <= i < |s|
      ensures Lower(Upper(s))[i] == Lower(s)[i]
    {
    }
  }

  function Digit(d: nat): (c: char)
    requires d < 10
    ensures '0' <= c <= '9'
  {
    ('0' as int + d) as char
  }

  /** Every character is a decimal digit. */
  predicate IsDigits(s: string)
  {
    forall i :: 0 <= i < |s| ==> '0' <= s[i] <= '9'
  }

  /** The number a string of decimal digits denotes, most significant first. */
  function DigitsValue(s: string): nat
    requires IsDigits(s)
  {
    if s == [] then 0
    else DigitsValue(s[..|s| - 1]) * 10 + (s[|s| - 1] as int - '0' as int)
  }

  /** The decimal digits of n, most significant first, without leading zeros. */
  function Decimal(n: nat): (r: string)
    ensures 1 <= |r| && IsDigits(r)
    ensures DigitsValue(r) == n
    ensures (r[0] == '0') == (n == 0)
    ensures (n < 10) == (|r| == 1)
    decreases n
  {
    if n < 10 then [Digit(n)]
    else
      var r := Decimal(n / 10) + [Digit(n % 10)];
      assert r[..|r| - 1] == Decimal(n / 10);
      r
  }

  /** Distinct numbers have distinct decimal renderings: the rendering determines its value. */
  lemma DecimalInjective(a: nat, b: nat)
    requires Decimal(a) == Decimal(b)
    ensures a == b
  {
    assert DigitsValue(Decimal(a)) == a && DigitsValue(Decimal(b)) == b;
  }

  /** strconv.FormatInt(x, 10): a minus sign for negatives, then the digits of |x|. */
  function IntDecimal(x: int): (r: string)
    ensures 1 <= |r|
    ensures (r[0] == '-') == (x < 0)
    ensures x < 0 ==> |r| >= 2 && IsDigits(r[1..]) && DigitsValue(r[1..]) == -x && r[1] != '0'
    ensures x >= 0 ==> IsDigits(r) && DigitsValue(r) == x && (r[0] == '0') == (x == 0)
  {
    if x < 0 then
      var r := "-" + Decimal(-x);
      assert r[1..] == Decimal(-x);
      r
    else Decimal(x)
  }

  /** The index of the first occurrence of c in s, if any. */
  function FirstIndex(s: string, c: char): (r: Option<nat>)
    ensures r.None? ==> c !in s
    ensures r.Some? ==> r.value < |s| && s[r.value] == c && c !in s[..r.value]
  {
    if s == [] then None
    else if s[0] == c then Some(0)
    else match FirstIndex(s[1..], c)
      case None => None
      case Some(k) => Some(k + 1)
  }
}

=== FILE: wrappers.dfy ===
/** The optional value used for Go's nil results and panicking lookups. */
module Wrappers {
  datatype Option<+T> = None | Some(value: T)
}
